=== FILE: README.md ===
# QuickChat overlay — a Dafny model

QuickChat is an Electron overlay: a global shortcut shows a small always-on-top
window where the user types a question, the answer streams in from a language
model, and the answer can be copied (with code fences stripped) or cleared. A
settings panel stores the API keys, the model and the system prompt in the
browser's `localStorage`.

This project models the deterministic core of that application as pure Dafny
functions over immutable state, and proves properties of it:

- `Js` — the JavaScript built-ins the code relies on: `String.prototype.trim`
  (the ECMAScript white-space and line-terminator set) and the `x || fallback`
  idiom on strings.
- `Storage` — `localStorage` as a `map<string, string>`, and the keys the
  application uses.
- `Copy` — `useCopy.js`: the two global regular-expression replaces that
  remove code fences, the trim, and the `copySuccess` flag with its reset timer.
- `AiService` — `aiService.js`: provider dispatch, the request each provider
  path sends, and which stream chunks reach `onChunk`.
- `Chat` — `useChat.js`: the chat session driven by submit, chunk, end,
  failure and clear events, which interleave freely.
- `ChatView` — `ChatInterface.jsx`: which parts of the window are shown for a
  session state.
- `Combobox` — `Combobox.jsx`: the dropdown's open/closed machine.
- `Settings` — `SettingsPanel.jsx`: defaults, loading, and the write-through of
  every edit to the store.
- `Overlay` — `Overlay.jsx`: the keyboard shortcuts, the mode switch with its
  resize request, clear-on-mount, and how all of the above compose.
- `MainWindow` — `main.js`: the window visibility flag, the resize centring
  arithmetic, and the macOS quit interception.

Asynchrony is modelled as explicit events: each chunk of a stream, the end or
failure of a stream, and each timer firing (`ResetFires`, `CloseTimerFired`)
is a separate step, so a clear can arrive between any two chunks. The SDK
stream is an abstract `seq<Option<string>>` of chunk texts plus an optional
error message; whether a clipboard write succeeds is a parameter.

The code does not do the following, and neither does the model:

- No hidden-thought parsing: `Overlay.jsx` destructures `isThinking`, but the
  chat hook never returns it.
- Nothing discards late chunks after a clear (there is no generation token).
- Hiding the window does not clear the chat.
- The service has no Ollama path, and the chat hook does not use the service
  at all. The hook always reads `openaiApiKey` and calls OpenAI, whatever
  provider is selected.
- There are no Cmd-key bindings.
- Copy timers are not restarted.
- The chat hook's fallback system prompt (three rules) differs from the
  settings panel's default (four rules).

## Model

| member | source | states |
|---|---|---|
| Js.OrElse | src/renderer/hooks/useChat.js:26-27 | `value \|\| fallback`: the value when present and non-empty, otherwise the fallback |
| Js.SkipWhitespace | src/renderer/hooks/useCopy.js:11 | the white space `trim()` removes at the front: every character skipped is white space and the first one kept is not |
| Js.SkipWhitespaceBack | src/renderer/hooks/useCopy.js:11 | the white space `trim()` removes at the back: every character dropped is white space and the last one kept is not |
| Js.Trim | src/renderer/hooks/useChat.js:12-14 | `trim()` removes only white space, and only at the two ends; what is left neither starts nor ends with white space, and it is empty exactly when the input is all white space |
| Js.TrimOfTrimmed | src/renderer/hooks/useCopy.js:11 | a string whose ends are not white space is its own trim |
| Js.TrimIdempotent | src/renderer/hooks/useCopy.js:11 | trimming twice is trimming once |
| Storage.GetItem | src/renderer/hooks/useChat.js:21 | `getItem` returns the stored string exactly when the key was written, and null otherwise |
| Storage.ItemOr | src/renderer/hooks/useChat.js:26-27 | `getItem(k) \|\| d`: the stored string if present and non-empty, else `d` |
| Storage.SetItem | src/renderer/components/SettingsPanel.jsx:61-63 | `setItem` writes one key; every other key keeps its value |
| Copy.WordRun | src/renderer/hooks/useCopy.js:10 | `[\w]*` matches greedily: every character of the run is in `[A-Za-z0-9_]` and the next one is not |
| Copy.TaggedFenceLength | src/renderer/hooks/useCopy.js:10 | a match of `` ```[\w]*\n? `` is three backticks, the maximal word run, then one newline only if one follows |
| Copy.BareFenceLength | src/renderer/hooks/useCopy.js:10 | a match of `` ```\n? `` is three backticks plus a newline exactly when one follows |
| Copy.CleanForClipboard | src/renderer/hooks/useCopy.js:10-11 | the written text contains no ` ``` `, has non-white-space ends, and equals the trimmed result of the first replace alone |
| Copy.NoFenceAfterTaggedStrip | src/renderer/hooks/useCopy.js:10 | after the first global replace no ` ``` ` remains anywhere |
| Copy.BareStripIdentity | src/renderer/hooks/useCopy.js:10 | on text without ` ``` ` the second replace changes nothing |
| Copy.TaggedStripIdentity | src/renderer/hooks/useCopy.js:10 | on text without ` ``` ` the first replace changes nothing |
| Copy.CleanIdempotent | src/renderer/hooks/useCopy.js:10-11 | cleaning already cleaned text gives the same text |
| Copy.TaggedStripKeepsPlainPrefix | src/renderer/hooks/useCopy.js:10 | the scan is leftmost: text before the first backtick is kept verbatim and the rest is processed on its own |
| Copy.WordRunOfTag | src/renderer/hooks/useCopy.js:10 | a tag of word characters followed by a non-word character is consumed exactly |
| Copy.StripTaggedFences | src/renderer/hooks/useCopy.js:10 | the first global replace never lengthens the text; its result has no fence (Copy.NoFenceAfterTaggedStrip) and fence-free text is left alone (Copy.TaggedStripIdentity) |
| Copy.StripBareFences | src/renderer/hooks/useCopy.js:10 | the second global replace never lengthens the text, and it leaves the first one's fence-free result alone (Copy.BareStripIdentity) |
| Copy.StripTaggedBlock | src/renderer/hooks/useCopy.js:10 | a block of an opening fence, a word tag, a newline, backtick-free code and a closing fence reduces to the code |
| Copy.CleanTaggedBlock | src/renderer/hooks/useCopy.js:10-11 | copying such a block writes the trimmed code |
| Copy.NonWordTagSurvives | src/renderer/hooks/useCopy.js:10 | tag characters outside `[\w]` (and the text after them) are not removed |
| Copy.CleanPythonExample | src/renderer/hooks/useCopy.js:10-11 | a fenced Python block around `print(1)` and a newline copies as `print(1)` |
| Copy.NonWordTagExample | src/renderer/hooks/useCopy.js:10 | a block tagged `c++` around `x` loses only the fences and `c`, leaving `++`, a newline and `x` |
| Copy.TrimTrailingNewline | src/renderer/hooks/useCopy.js:11 | a trailing newline left by the closing fence is removed by the trim |
| Copy.HandleCopy | src/renderer/hooks/useCopy.js:7-17 | empty text changes nothing and writes nothing; otherwise the cleaned text is written, and only a successful write sets the flag and schedules one reset; the flag is only set while a reset is pending |
| Copy.ResetFires | src/renderer/hooks/useCopy.js:15 | a pending reset clears the flag and is consumed; with none pending nothing changes |
| Copy.SecondCopyDoesNotExtendWindow | src/renderer/hooks/useCopy.js:14-15 | a second copy does not cancel the first timer, so the first reset already clears the flag |
| AiService.CreateAIClient | src/renderer/services/aiService.js:15-28 | exactly 'openai' and 'gemini' yield a client (browser-enabled OpenAI, non-Vertex Gemini); any other provider fails with "Unsupported provider: " and the name |
| AiService.ChatMessages | src/renderer/services/aiService.js:88-91 | an OpenAI request carries exactly two messages, the system prompt and then the user prompt |
| AiService.NonEmptyChunks | src/renderer/services/aiService.js:99-104 | the forwarded texts are non-empty, no more than the chunks, and are exactly the present non-empty chunk texts |
| AiService.NonEmptyChunksAppend | src/renderer/services/aiService.js:99-104 | forwarding is an order-preserving filter: it distributes over concatenated streams |
| AiService.NonEmptyChunksOfBlank | src/renderer/services/aiService.js:146-150 | a stream without usable text forwards nothing |
| AiService.NonEmptyChunksOfFull | src/renderer/services/aiService.js:99-104 | a stream whose chunks all carry text forwards each text once, in order |
| AiService.OpenAIRequest | src/renderer/services/aiService.js:82-97 | the OpenAI request streams, carries the key and model as given, and exactly the system message then the user message |
| AiService.GeminiRequest | src/renderer/services/aiService.js:120-140 | the Gemini request streams, carries the key and model as given, the user prompt as contents and the system prompt as instruction, with thinking budget 0, temperature 0.7 and 2048 output tokens |
| AiService.Consume | src/renderer/services/aiService.js:99-104 | consuming a stream records the request sent, forwards exactly the non-empty chunk texts in order, and rethrows the stream's error |
| AiService.GenerateResponse | src/renderer/services/aiService.js:41-68 | 'openai' and 'gemini' send their own streaming request and forward the non-empty texts, then rethrow the stream's error; any other provider throws "Unsupported provider: " with the name before sending or forwarding anything |
| AiService.DispatchAgreesWithClient | src/renderer/services/aiService.js:15-28 | `generateResponse` and `createAIClient` reject exactly the same providers, with the same message |
| AiService.OllamaIsRejected | src/renderer/services/aiService.js:65-67 | the 'ollama' provider offered by the settings is rejected by the service |
| AiService.PromptsReachTheRequest | src/renderer/services/aiService.js:126-140 | on both paths the key and model are passed through and the prompts are not swapped; OpenAI streams, and Gemini has thinking budget 0 |
| Chat.Submit | src/renderer/hooks/useChat.js:12-46 | a blank input or a request in flight makes submit a no-op. Otherwise the trimmed input becomes the original prompt and the response is emptied. Without a key the missing-key error shows at once and no request is sent. With a key, loading starts, the error is emptied, and the OpenAI request carries the stored model and system prompt (or their fallbacks) and the trimmed input |
| Chat.Submitted | src/renderer/hooks/useChat.js:12-24 | the state submit leaves: unchanged when the guard fails; otherwise the trimmed prompt with an empty response, and loading exactly when a key is stored, else the configuration hint as the error |
| Chat.SubmitRequest | src/renderer/hooks/useChat.js:21-46 | a request is sent exactly when the guard passes and an OpenAI key is stored; it carries that key, the stored or fallback model and system prompt, and the trimmed input |
| Chat.AppendChunk | src/renderer/hooks/useChat.js:48-53 | a present non-empty chunk text is appended to the response of the request in flight; nothing else changes |
| Chat.Finish | src/renderer/hooks/useChat.js:54-58 | the end of a stream stops loading, keeps the partial response and shows a thrown message as the error |
| Chat.Clear | src/renderer/hooks/useChat.js:61-66 | clear empties input, response, error and original prompt and leaves loading alone |
| Chat.ChunksAccumulate | src/renderer/hooks/useChat.js:48-53 | while loading, a run of chunks appends exactly the in-order concatenation of the non-empty texts |
| Chat.SessionCompletes | src/renderer/hooks/useChat.js:12-58 | submit with a key, then the chunks, then the end: the response is the concatenation of the non-empty texts, no error, not loading |
| Chat.HookAgreesWithService | src/renderer/hooks/useChat.js:37-53 | the hook sends the same request as the service's OpenAI path and ends with the concatenation of what the service would forward |
| Chat.SessionFails | src/renderer/hooks/useChat.js:54-58 | a stream that throws keeps the partial response, shows the thrown message and stops loading |
| Chat.MissingKeyFailsFast | src/renderer/hooks/useChat.js:21-24 | an absent or empty OpenAI key ends the submit at once with the configuration hint and no request |
| Chat.SubmitIgnoresProvider | src/renderer/hooks/useChat.js:21-27 | the stored provider has no influence on submit |
| Chat.ClearIdempotent | src/renderer/hooks/useChat.js:61-66 | clearing twice is clearing once |
| Chat.ClearDoesNotCancelStream | src/renderer/hooks/useChat.js:61-66 | after a clear during a request, later chunks still append, so the response becomes the text streamed since the clear |
| Chat.Step | src/renderer/hooks/useChat.js:4-76 | one event of the hook: typing (`setInput`) changes the input and nothing else; only typing and clear touch the input; only submit starts loading; a chunk only extends the response and changes nothing else; a normal end only stops loading; a failure also shows its message when a stream was in flight; clear empties every value except `isLoading` |
| Chat.StepKeepsInvariant | src/renderer/hooks/useChat.js:15-58 | every event keeps "no error is shown while loading" |
| Chat.RunKeepsInvariant | src/renderer/hooks/useChat.js:15-58 | every sequence of events keeps that invariant |
| ChatView.Render | src/renderer/components/ChatInterface.jsx:21-91 | compact iff response and error are empty. The textarea is disabled iff loading. The error box shows iff there is an error. The response area shows iff there is a response or loading, and "Thinking..." iff loading with no response. The action bar shows iff there is a response or original prompt. The copy button shows iff there is a response, labelled "✓ Copied!" iff the copy flag is set. The clear button shows iff the bar does |
| ChatView.SubmitShowsThinking | src/renderer/components/ChatInterface.jsx:63-72 | after an accepted submit with a key: compact window, "Thinking...", disabled textarea, clear button but no copy button |
| ChatView.MissingKeyShowsHint | src/renderer/components/ChatInterface.jsx:55-61 | a submit without a key shows the hint in an expanded window with the textarea enabled |
| ChatView.ErrorAndThinkingExclusive | src/renderer/components/ChatInterface.jsx:55-72 | in every state satisfying the session invariant, the error box and the placeholder never show together |
| ChatView.ClearCollapsesWindow | src/renderer/components/ChatInterface.jsx:21 | a clear outside a request leaves a compact window with nothing below the input |
| ChatView.ClearWhileLoadingKeepsPlaceholder | src/renderer/components/ChatInterface.jsx:70-72 | a clear during a request keeps the placeholder and the disabled textarea but removes the buttons |
| ChatView.CopyLabelFollowsFlag | src/renderer/components/ChatInterface.jsx:84 | the label is "✓ Copied!" after a successful copy and "Copy Ctrl+J" again once its reset fires |
| Combobox.ComboStep | src/renderer/components/Combobox.jsx:8-28 | only typing and selecting report a value, the typed text or the option. Typing and focus open the list, selecting closes it, and the chevron negates it. Blur only schedules a close, and a firing timer closes the list |
| Combobox.VisibleOptions | src/renderer/components/Combobox.jsx:51-62 | the dropdown lists all options in order iff it is open and there are options |
| Combobox.ToggleTwice | src/renderer/components/Combobox.jsx:18-20 | toggling twice restores the state |
| Combobox.StaleBlurClosesAfterRefocus | src/renderer/components/Combobox.jsx:22-28 | a refocus does not cancel the blur timer, which then closes the list |
| Combobox.PickSuggestion | src/renderer/components/Combobox.jsx:13-16 | focus, blur, click on an option, timer: exactly that option is reported and the list ends closed |
| Combobox.TypingReportsEveryEdit | src/renderer/components/Combobox.jsx:8-11 | typing reports every text in order and keeps the list open |
| Settings.SuggestedModels | src/renderer/components/SettingsPanel.jsx:9-24 | exactly the three known providers have suggestions, all non-empty names; any other provider has none |
| Settings.DefaultModelFor | src/renderer/components/SettingsPanel.jsx:27-32 | a known provider's default model is one of its suggestions; an unknown provider gets 'gpt-4.1-mini' |
| Settings.ClearOnReloadSetting | src/renderer/components/SettingsPanel.jsx:50 | clear-on-reload is on unless the stored value is exactly "false" |
| Settings.BoolToString | src/renderer/components/SettingsPanel.jsx:91 | `toString()` on a boolean gives "true" or "false" |
| Settings.ClearOnReloadRoundTrip | src/renderer/components/SettingsPanel.jsx:90-92 | saving a boolean and loading it back gives the boolean |
| Settings.Load | src/renderer/components/SettingsPanel.jsx:43-59 | keys load as stored or empty. URL, model, prompt and provider are each the stored value when it is non-empty and otherwise their own default ('http://localhost:11434', 'gpt-4.1-mini', the default prompt, 'openai'), so they are never empty; clear-on-reload is on unless "false" is stored |
| Settings.PanelStep | src/renderer/components/SettingsPanel.jsx:61-97 | each edit sets exactly its own panel field and the store becomes the old store with exactly its own key set to the new value: the OpenAI key, Gemini key, Ollama URL, model and system prompt as typed, the checkbox as "true"/"false". A provider change also sets and stores that provider's default model. Restore sets and stores the default prompt |
| Settings.EditWritesOnlyItsKeys | src/renderer/components/SettingsPanel.jsx:61-97 | after any edit every key outside the edit's own keys reads as before, and the edit's keys are present |
| Settings.LoadIsSynced | src/renderer/components/SettingsPanel.jsx:43-59 | right after loading the panel agrees with the store |
| Settings.StepKeepsSynced | src/renderer/components/SettingsPanel.jsx:61-97 | every edit keeps the panel equal to what a reload would show, up to emptied fields that reload as defaults |
| Settings.LoadAfterKeyWrite | src/renderer/components/SettingsPanel.jsx:43-63 | writing the OpenAI key changes only the loaded key, and an in-sync panel stays in sync after editing it |
| Settings.LoadAfterGeminiKeyWrite | src/renderer/components/SettingsPanel.jsx:43-67 | writing the Gemini key changes only the loaded Gemini key, and keeps an in-sync panel in sync |
| Settings.LoadAfterUrlWrite | src/renderer/components/SettingsPanel.jsx:43-71 | a written Ollama URL loads back as written, or as the default URL when empty; nothing else loads differently |
| Settings.LoadAfterModelWrite | src/renderer/components/SettingsPanel.jsx:43-75 | a written model loads back as written, or as the default model when empty; nothing else loads differently |
| Settings.LoadAfterPromptWrite | src/renderer/components/SettingsPanel.jsx:43-88 | a written system prompt loads back as written, or as the default prompt when empty; nothing else loads differently |
| Settings.LoadAfterProviderWrite | src/renderer/components/SettingsPanel.jsx:43-84 | a written provider loads back as written, or as 'openai' when empty; nothing else loads differently |
| Settings.LoadAfterClearOnReloadWrite | src/renderer/components/SettingsPanel.jsx:43-92 | the saved checkbox loads back as set; nothing else loads differently |
| Settings.LoadAfterProviderSelected | src/renderer/components/SettingsPanel.jsx:77-84 | after a provider choice a load shows that provider (or 'openai' when empty) with its default model, and an in-sync panel stays in sync |
| Settings.FieldEditKeepsSynced | src/renderer/components/SettingsPanel.jsx:61-75 | an edit of a key, the URL or the model keeps the panel equal to what a reload shows, up to emptied fields |
| Settings.ChoiceEditKeepsSynced | src/renderer/components/SettingsPanel.jsx:77-97 | a provider choice, a checkbox change, a prompt edit or a restore keeps the panel equal to what a reload shows, up to emptied fields |
| Settings.RunKeepsSynced | src/renderer/components/SettingsPanel.jsx:61-97 | any sequence of edits keeps that agreement |
| Settings.SavedModelLoads | src/renderer/components/SettingsPanel.jsx:73-75 | a typed model is what the next load shows, an emptied one loads as the default |
| Settings.ProviderChangeResetsModel | src/renderer/components/SettingsPanel.jsx:77-84 | choosing a known provider replaces the model by one of its suggestions, in the panel and the store |
| Settings.ProviderSelectionKeepsKey | src/renderer/components/SettingsPanel.jsx:77-84 | choosing a provider stores its default model and leaves the OpenAI key untouched |
| Settings.RestoreAfterEdit | src/renderer/components/SettingsPanel.jsx:94-97 | restore after any prompt edit leaves the panel and the next load on the default prompt |
| Settings.LoadEmptyStore | src/renderer/components/SettingsPanel.jsx:35-49 | an empty store loads the initial values except the prompt, which becomes the default |
| Settings.ProviderFieldFor | src/renderer/components/SettingsPanel.jsx:134-189 | the provider-specific input is shown only for a known provider: the OpenAI key field exactly for 'openai', the Gemini key field exactly for 'gemini', the Ollama URL field exactly for 'ollama' |
| Overlay.KeyActionFor | src/renderer/components/Overlay.jsx:60-83 | Enter without Shift submits in both modes. Escape closes the settings or hides the window. Ctrl with ",", "j", "k" or "l" opens the settings, copies, clears or focuses. Every other key does nothing |
| Overlay.ShiftEnterDoesNothing | src/renderer/components/Overlay.jsx:61 | Shift+Enter is no shortcut |
| Overlay.OnlyEscapeDependsOnMode | src/renderer/components/Overlay.jsx:60-83 | every key except Escape means the same in both modes |
| Overlay.SizeFor | src/renderer/components/Overlay.jsx:38-47 | the requested width is always 600; the settings height is the taller one; the chat size is used exactly in chat mode |
| Overlay.ResizeEffect | src/renderer/components/Overlay.jsx:38-47 | a resize is requested on mount and exactly when the mode changes, for the new mode's size |
| Overlay.OnMount | src/renderer/components/Overlay.jsx:31-36 | on mount the chat is cleared unless clear-on-reload is stored as "false" |
| Overlay.MountClearIsNoOp | src/renderer/components/Overlay.jsx:31-36 | on a fresh page that clear changes nothing |
| Overlay.EmptiedPromptDiverges | src/renderer/components/SettingsPanel.jsx:5 | after emptying the system prompt, the panel reloads its four-rule default while the chat sends its own, different three-rule fallback |
| Overlay.SetShowSettings | src/renderer/components/Overlay.jsx:138-149 | switching modes sends no request and writes nothing to the clipboard. It keeps the chat, copy flag, store and window, and requests the resize. Opening the settings loads the panel from the store; any other switch keeps the panel |
| Overlay.Perform | src/renderer/components/Overlay.jsx:55-83 | each action affects only its own part: submit the chat, hide the window, copy the response, clear the chat. Ctrl+, opens the settings and Escape in the settings closes them, each as the mode switch does. Only submit sends a request and only copy writes the clipboard |
| Overlay.OverlayStep | src/renderer/components/Overlay.jsx:146-172 | keys dispatch through the shortcut table, and the buttons do what their shortcuts do. The gear and the panel's close button switch modes. Typing sets only the chat input (`setInput`). Chunks, the stream's end or failure, and the copy reset each change only their own hook's state. Panel edits change the store only while the panel is shown |
| Overlay.EscapeLeavesSettingsFirst | src/renderer/components/Overlay.jsx:64-69 | in the settings, a first Escape returns to the chat (requesting the chat size) and only a second one hides the window |
| Overlay.CtrlCommaOpensSettings | src/renderer/components/Overlay.jsx:70-72 | Ctrl+, in the chat view opens the settings with the panel loaded from the store and requests the settings size; chat, copy flag, store and window are untouched |
| Overlay.ClearBetweenChunksStillAppends | src/renderer/components/Overlay.jsx:55-78 | Ctrl+K between two chunks empties the response, but the stream keeps loading and the next chunk's text is appended to the emptied response |
| Overlay.EnterInSettingsSubmitsChat | src/renderer/components/Overlay.jsx:61-63 | Enter in the settings submits the chat input |
| Overlay.CopyShortcutMatchesButton | src/renderer/components/Overlay.jsx:73-75 | Ctrl+J does what the copy button does, writing the cleaned response |
| Overlay.EditedModelReachesRequest | src/renderer/hooks/useChat.js:26 | a model typed in the settings is the model of the next chat request |
| Overlay.GeminiSelectionStillUsesOpenAI | src/renderer/hooks/useChat.js:21-46 | after choosing Gemini the chat still sends an OpenAI request with the OpenAI key, naming 'gemini-2.5-flash' |
| Overlay.EnterSendsStoredModel | src/renderer/hooks/useChat.js:21-26 | Enter with a submittable input, a key and a stored model sends an OpenAI request for that model with that key |
| Overlay.SettingsWindowIsCentred | src/renderer/components/Overlay.jsx:38-47 | opening the settings makes Overlay's own effect request 600×950 once, and the main process centres that size in a rectangle of the work area's size anchored at the screen origin |
| MainWindow.Created | main.js:14-21 | a created window exists and is hidden (the flag is untouched) |
| MainWindow.Show | main.js:52-58 | showing sets the flag only when a window exists |
| MainWindow.Hide | main.js:60-65 | hiding clears the flag only when a window exists |
| MainWindow.Toggle | main.js:67-73 | toggling flips the flag when a window exists |
| MainWindow.OnBlur | main.js:41-45 | blur hides only a visible window; blur while hidden is a no-op |
| MainWindow.OnClosed | main.js:47-49 | `closed` forgets the window and leaves the flag |
| MainWindow.BeforeQuit | main.js:121-126 | the quit is cancelled exactly on macOS, where the window is hidden |
| MainWindow.StartsHidden | main.js:10-11 | the flag starts false, and the first toggle after creation shows the window |
| MainWindow.HideIdempotent | main.js:60-65 | hiding twice is hiding once |
| MainWindow.ToggleTwice | main.js:67-73 | with a window, toggling twice restores the state |
| MainWindow.BlurHides | main.js:41-45 | blur never removes the window and leaves an existing one hidden |
| MainWindow.ClosedWindowIsInert | main.js:47-65 | after `closed`, show, hide, toggle and blur change nothing |
| MainWindow.VisibilityFollowsLastCommand | main.js:52-65 | with a window, the flag is true after show and false after hide, blur and a macOS quit |
| MainWindow.Round | main.js:90 | `Math.round` gives the integer within half of its argument, halves rounding up |
| MainWindow.RoundHalf | main.js:90-91 | `Math.round(d / 2)` equals the floor of (d + 1) / 2 |
| MainWindow.Resize | main.js:84-94 | bounds are set only with a window; the size is as requested, and within a rectangle of the work area's size anchored at the screen origin the left (top) margin equals the right (bottom) one or exceeds it by one pixel |

## Left out

- The OpenAI and Google GenAI SDK calls and the network: replaced by an abstract stream of chunk texts with an optional terminal error.
- A chunk with no `choices` property at all makes `chunk.choices[0]?.delta?.content` throw a `TypeError`, which the model does not represent. An empty `choices` array only yields `undefined`, and that is the model's absent chunk text.
- Electron plumbing: BrowserWindow options, URL loading, IPC registration, global shortcut registration and the app lifecycle handlers (main.js:75-119). One quirk of main.js:97-101 is also not modelled: the `||` there installs the `activate` handler only when shortcut registration fails.
- The preload bridge; the resize and hide IPC calls are assumed to reach the main process.
- DOM focus: the focus helper, the focus timers and the window focus and document click listeners (Overlay.jsx:49-53 and 85-123), and scrolling of the response area (Overlay.jsx:132-136). They move focus or scroll only and change no modelled state. The keydown listener registered at Overlay.jsx:125-130 is modelled, as `Overlay.KeyActionFor` and `Overlay.Perform`.
- JSX markup, CSS classes other than compact/expanded, and Markdown rendering.
- src/renderer/components/Settings.jsx is not part of this model: Overlay never renders it.
- src/renderer/hooks/useWindowManager.js is not part of this model. Its resize effect duplicates Overlay's, its clear-on-reload effect does nothing, and its `handleClose` is the hide IPC call, modelled as `MainWindow.Hide`.
- JavaScript property lookup through the prototype chain in `providerModels[apiProvider]` (a provider named like an `Object.prototype` member).
- Timer durations (2000 ms, 150 ms) appear only as constants: timers are events that fire in scheduling order, not wall-clock time.
- Chat.AppendChunk: chunks and stream ends are ignored when no request is in flight. In the code they cannot arrive then, because only `handleSubmit` starts a stream and `isLoading` stays true until it ends.
- MainWindow.Resize: main.js:88-91 reads only the work area's size, never its x and y, so on a display whose work area does not start at (0, 0) the window is not centred on the work area. The model has no work-area origin either, so it does not show that offset.
- Overlay.SettingsWindowIsCentred: counts only Overlay's own resize effect. useWindowManager.js sends a second, identical request for the same mode change, and that file is not part of this model.
- MainWindow.Round: uses exact rational arithmetic, not IEEE doubles; the two agree for the integer screen and window sizes involved.

=== FILE: ai_service.dfy ===
/**
  The provider abstraction of src/renderer/services/aiService.js: which client
  and which streaming request each provider string selects, and which chunks of
  the provider's stream reach the `onChunk` callback.

  The SDK calls are replaced by an abstract stream: the text each chunk carries
  (`choices[0]?.delta?.content` for OpenAI, `chunk.text` for Gemini, absent when
  the chunk has none) and, optionally, the message of an error that ended it.
 */
module AiService {
  import opened Js

  /** The SDK client `createAIClient` constructs. */
  datatype Client =
    | OpenAIClient(apiKey: string, dangerouslyAllowBrowser: bool)
    | GeminiClient(apiKey: string, vertexai: bool)

  /** One chat message of an OpenAI chat-completion request. */
  datatype Message = Message(role: string, content: string)

  /** The streaming request each provider path sends. */
  datatype Request =
    | ChatCompletion(apiKey: string, model: string, messages: seq<Message>, stream: bool)
    | GenerateContentStream(apiKey: string, model: string, contents: string,
                            systemInstruction: string, thinkingBudget: int,
                            temperature: real, maxOutputTokens: int,
                            streamGenerateContent: bool)

  /** What the provider's stream delivers: chunk texts in order, then possibly an error. */
  datatype Stream = Stream(chunks: seq<Option<string>>, failure: Option<string>)

  /**
    What one `generateResponse` call does: the request it sends (none when the
    provider is rejected), the arguments of the `onChunk` calls in order, and
    the message of the error it throws, if any.
   */
  datatype Generation = Generation(request: Option<Request>, forwarded: seq<string>, thrown: Option<string>)

  function UnsupportedProvider(provider: string): string {
    "Unsupported provider: " + provider
  }

  /** `createAIClient(provider, apiKey)`. */
  function CreateAIClient(provider: string, apiKey: string): (r: Result<Client>)
    ensures r.Ok? <==> provider == "openai" || provider == "gemini"
    ensures provider == "openai" ==> r == Ok(OpenAIClient(apiKey, true))
    ensures provider == "gemini" ==> r == Ok(GeminiClient(apiKey, false))
    ensures r.Err? ==> r.message == UnsupportedProvider(provider)
  {
    if provider == "openai" then Ok(OpenAIClient(apiKey, true))
    else if provider == "gemini" then Ok(GeminiClient(apiKey, false))
    else Err(UnsupportedProvider(provider))
  }

  /** The system-then-user message pair of an OpenAI request. */
  function ChatMessages(systemPrompt: string, userPrompt: string): (r: seq<Message>)
    ensures |r| == 2
    ensures r[0].role == "system" && r[0].content == systemPrompt
    ensures r[1].role == "user" && r[1].content == userPrompt
  {
    [Message("system", systemPrompt), Message("user", userPrompt)]
  }

  /** The request of `generateOpenAIResponse`. */
  function OpenAIRequest(apiKey: string, model: string, systemPrompt: string, userPrompt: string): (r: Request)
    ensures r.ChatCompletion? && r.stream
    ensures r.apiKey == apiKey && r.model == model
    ensures |r.messages| == 2
    ensures r.messages[0] == Message("system", systemPrompt) && r.messages[1] == Message("user", userPrompt)
  {
    ChatCompletion(apiKey, model, ChatMessages(systemPrompt, userPrompt), true)
  }

  /**
    The request object `generateGeminiResponse` builds: it carries a thinking
    budget of 0, temperature 0.7 and at most 2048 output tokens. What the SDK
    does with those values is outside the model.
   */
  function GeminiRequest(apiKey: string, model: string, systemPrompt: string, userPrompt: string): (r: Request)
    ensures r.GenerateContentStream? && r.streamGenerateContent
    ensures r.apiKey == apiKey && r.model == model
    ensures r.contents == userPrompt && r.systemInstruction == systemPrompt
    ensures r.thinkingBudget == 0 && r.temperature == 0.7 && r.maxOutputTokens == 2048
  {
    GenerateContentStream(apiKey, model, userPrompt, systemPrompt, 0, 0.7, 2048, true)
  }

  /**
    The texts `if (content) onChunk(content)` forwards: every present,
    non-empty chunk text, in stream order.
   */
  function NonEmptyChunks(chunks: seq<Option<string>>): (r: seq<string>)
    ensures |r| <= |chunks|
    ensures forall i :: 0 <= i < |r| ==> r[i] != ""
    ensures forall x :: x in r <==> x != "" && Some(x) in chunks
  {
    if chunks == [] then []
    else
      var head := if chunks[0].Some? && Truthy(chunks[0].value) then [chunks[0].value] else [];
      head + NonEmptyChunks(chunks[1..])
  }

  /** The filter distributes over concatenation of streams: nothing is merged or reordered. */
  lemma {:induction false} NonEmptyChunksAppend(a: seq<Option<string>>, b: seq<Option<string>>)
    ensures NonEmptyChunks(a + b) == NonEmptyChunks(a) + NonEmptyChunks(b)
    decreases |a|
  {
    if a != [] {
      assert (a + b)[0] == a[0];
      assert (a + b)[1..] == a[1..] + b;
      NonEmptyChunksAppend(a[1..], b);
    } else {
      assert a + b == b;
    }
  }

  /** A stream with no usable text forwards nothing. */
  lemma {:induction false} NonEmptyChunksOfBlank(chunks: seq<Option<string>>)
    requires forall i :: 0 <= i < |chunks| ==> chunks[i] == None || chunks[i] == Some("")
    ensures NonEmptyChunks(chunks) == []
    decreases |chunks|
  {
    if chunks != [] {
      NonEmptyChunksOfBlank(chunks[1..]);
    }
  }

  /** A stream whose every chunk carries text forwards every chunk, one call each. */
  lemma {:induction false} NonEmptyChunksOfFull(texts: seq<string>, chunks: seq<Option<string>>)
    requires |chunks| == |texts|
    requires forall i :: 0 <= i < |texts| ==> texts[i] != "" && chunks[i] == Some(texts[i])
    ensures NonEmptyChunks(chunks) == texts
    decreases |chunks|
  {
    if chunks != [] {
      NonEmptyChunksOfFull(texts[1..], chunks[1..]);
      assert [texts[0]] + texts[1..] == texts;
    }
  }

  /** Consumes a provider stream: forwards its non-empty texts, then rethrows its error. */
  function Consume(request: Request, stream: Stream): (r: Generation)
    ensures r.request == Some(request)
    ensures r.forwarded == NonEmptyChunks(stream.chunks)
    ensures r.thrown == stream.failure
  {
    Generation(Some(request), NonEmptyChunks(stream.chunks), stream.failure)
  }

  /**
    `generateResponse({provider, apiKey, model, systemPrompt, userPrompt, onChunk})`:
    'openai' and 'gemini' each send their own request and forward the stream's
    non-empty texts; any other provider throws before sending or forwarding anything.
   */
  function GenerateResponse(provider: string, apiKey: string, model: string,
                            systemPrompt: string, userPrompt: string, stream: Stream): (r: Generation)
    ensures r.request.None? <==> provider != "openai" && provider != "gemini"
    ensures r.request.None? ==> r.forwarded == [] && r.thrown == Some(UnsupportedProvider(provider))
    ensures r.request.Some? ==> r.forwarded == NonEmptyChunks(stream.chunks) && r.thrown == stream.failure
    ensures provider == "openai" ==> r.request == Some(OpenAIRequest(apiKey, model, systemPrompt, userPrompt))
    ensures provider == "gemini" ==> r.request == Some(GeminiRequest(apiKey, model, systemPrompt, userPrompt))
  {
    if provider == "openai" then Consume(OpenAIRequest(apiKey, model, systemPrompt, userPrompt), stream)
    else if provider == "gemini" then Consume(GeminiRequest(apiKey, model, systemPrompt, userPrompt), stream)
    else Generation(None, [], Some(UnsupportedProvider(provider)))
  }

  /** `generateResponse` and `createAIClient` accept and reject exactly the same providers, with the same message. */
  lemma DispatchAgreesWithClient(provider: string, apiKey: string, model: string,
                                 systemPrompt: string, userPrompt: string, stream: Stream)
    ensures var g := GenerateResponse(provider, apiKey, model, systemPrompt, userPrompt, stream);
            var c := CreateAIClient(provider, apiKey);
            (g.request.None? <==> c.Err?) && (c.Err? ==> g.thrown == Some(c.message))
  {
  }

  /** 'ollama' is a selectable provider in the settings, but this service rejects it. */
  lemma OllamaIsRejected(apiKey: string, model: string, systemPrompt: string, userPrompt: string, stream: Stream)
    ensures GenerateResponse("ollama", apiKey, model, systemPrompt, userPrompt, stream)
            == Generation(None, [], Some("Unsupported provider: ollama"))
  {
    assert UnsupportedProvider("ollama") == "Unsupported provider: ollama";
  }

  /** Both provider paths send the system prompt and the user prompt, never swapped. */
  lemma PromptsReachTheRequest(provider: string, apiKey: string, model: string,
                               systemPrompt: string, userPrompt: string, stream: Stream)
    requires provider == "openai" || provider == "gemini"
    ensures var req := GenerateResponse(provider, apiKey, model, systemPrompt, userPrompt, stream).request.value;
            && req.apiKey == apiKey && req.model == model
            && (req.ChatCompletion? ==> req.messages[0].content == systemPrompt && req.messages[1].content == userPrompt
                                        && req.stream)
            && (req.GenerateContentStream? ==> req.systemInstruction == systemPrompt && req.contents == userPrompt
                                               && req.thinkingBudget == 0)
  {
  }
}

=== FILE: chat.dfy ===
/**
  The chat session of src/renderer/hooks/useChat.js.

  The hook's state is the five values `input`, `response`, `isLoading`,
  `error` and `originalPrompt`. The asynchronous part of `handleSubmit` is
  split into events: the submit itself (guard, state reset, key lookup and
  request), one event per stream chunk, and the end of the stream, normal or
  by a thrown error. `handleClear` is an event that can arrive between any of
  them; it does not stop the stream, so later chunks still append.
 */
module Chat {
  import opened Js
  import opened Storage
  import AiService

  datatype ChatState = ChatState(
    input: string,
    response: string,
    isLoading: bool,
    error: string,
    originalPrompt: string)

  /** The state right after `useChat()` is first called: every value empty, not loading. */
  const InitialChat := ChatState("", "", false, "", "")

  const MissingKeyMessage := "API key not configured. Press Ctrl+, to set it up."
  const FallbackModel := "gpt-4.1-mini"

  /** The system prompt the hook falls back on (it differs from the settings panel's default). */
  const FallbackSystemPrompt :=
    "You are a helpful AI assistant. Follow "
    + "these rules in every response:\n\n1. **Be "
    + "concise.** Provide the shortest answer "
    + "that fully addresses the user's question\U{2014}no "
    + "background, no extra commentary.\n\n2. "
    + "**Code-only responses.** If the user "
    + "asks for code or a shell command, reply "
    + "with *only* the code in a properly fenced "
    + "code block. If possible, keep it to "
    + "one line. Do not include any explanation, "
    + "commentary, or surrounding text.\n\n3. "
    + "**No unsolicited information.** Unless "
    + "the user explicitly asks for examples, "
    + "alternatives, or details, do not add "
    + "any additional information."

  /** The events that drive the hook. */
  datatype ChatEvent =
    | Typed(text: string)                 // `setInput` from the textarea
    | SubmitPressed(store: Store)         // `handleSubmit`, reading the store as it is now
    | Chunk(content: Option<string>)      // one chunk's `choices[0]?.delta?.content`
    | StreamEnded                         // the `for await` loop finished
    | StreamFailed(message: string)       // the SDK threw `err` with `err.message`
    | Cleared                             // `handleClear`

  /** The result of `handleSubmit`: the new state and the request it sends, if any. */
  datatype SubmitOutcome = SubmitOutcome(state: ChatState, request: Option<AiService.Request>)

  /** The submit guard: a whitespace-only input or a request in flight makes submit a no-op. */
  predicate CanSubmit(s: ChatState) {
    Trim(s.input) != "" && !s.isLoading
  }

  /**
    `handleSubmit`. When the guard passes, the trimmed input becomes the
    original prompt and response and error are emptied; then either the
    OpenAI key is missing and the error is shown at once, or the OpenAI
    streaming request is sent and the session is loading. The provider
    setting is never read: the hook always uses the OpenAI key and client.
   */
  function Submit(s: ChatState, store: Store): (r: SubmitOutcome)
    ensures !CanSubmit(s) ==> r == SubmitOutcome(s, None)
    ensures CanSubmit(s) ==>
      && r.state.input == s.input
      && r.state.originalPrompt == Trim(s.input)
      && r.state.response == ""
      && (r.request.None? <==> ItemOr(store, ApiKeyItem, "") == "")
    ensures CanSubmit(s) && r.request.None? ==>
      r.state.error == MissingKeyMessage && !r.state.isLoading
    ensures CanSubmit(s) && r.request.Some? ==>
      && r.state.error == "" && r.state.isLoading
      && r.request.value == AiService.OpenAIRequest(
           store[ApiKeyItem],
           ItemOr(store, ModelItem, FallbackModel),
           ItemOr(store, SystemPromptItem, FallbackSystemPrompt),
           Trim(s.input))
  {
    SubmitOutcome(Submitted(s, store), SubmitRequest(s, store))
  }

  /** The state `handleSubmit` leaves, without the request it sends. */
  function Submitted(s: ChatState, store: Store): (r: ChatState)
    ensures !CanSubmit(s) ==> r == s
    ensures CanSubmit(s) ==>
      && r.input == s.input && r.originalPrompt == Trim(s.input) && r.response == ""
      && (r.isLoading <==> ItemOr(store, ApiKeyItem, "") != "")
      && r.error == (if r.isLoading then "" else MissingKeyMessage)
  {
    if !CanSubmit(s) then s
    else
      var prompt := Trim(s.input);
      if !Truthy(ItemOr(store, ApiKeyItem, "")) then ChatState(s.input, "", false, MissingKeyMessage, prompt)
      else ChatState(s.input, "", true, "", prompt)
  }

  /** The request `handleSubmit` sends: the OpenAI client's, with the stored or fallback model and system prompt. */
  function SubmitRequest(s: ChatState, store: Store): (r: Option<AiService.Request>)
    ensures r.Some? <==> CanSubmit(s) && ItemOr(store, ApiKeyItem, "") != ""
    ensures r.Some? ==> r.value == AiService.OpenAIRequest(
           store[ApiKeyItem],
           ItemOr(store, ModelItem, FallbackModel),
           ItemOr(store, SystemPromptItem, FallbackSystemPrompt),
           Trim(s.input))
  {
    if !CanSubmit(s) then None
    else
      var apiKey := ItemOr(store, ApiKeyItem, "");
      if !Truthy(apiKey) then None
      else
        var model := ItemOr(store, ModelItem, FallbackModel);
        var systemPrompt := ItemOr(store, SystemPromptItem, FallbackSystemPrompt);
        Some(AiService.OpenAIRequest(apiKey, model, systemPrompt, Trim(s.input)))
  }

  /**
    One chunk of the stream in flight: its text is appended when present and
    non-empty. Chunks only arrive while a stream is in flight, which is
    exactly while `isLoading` holds.
   */
  function AppendChunk(s: ChatState, content: Option<string>): (r: ChatState)
    ensures s.isLoading && content.Some? && Truthy(content.value) ==> r.response == s.response + content.value
    ensures !s.isLoading || content.None? || !Truthy(content.value) ==> r.response == s.response
    ensures r.input == s.input && r.isLoading == s.isLoading && r.error == s.error
    ensures r.originalPrompt == s.originalPrompt
  {
    if s.isLoading && content.Some? && Truthy(content.value) then s.(response := s.response + content.value)
    else s
  }

  /** The stream ends, normally or with an error message: the session stops loading. */
  function Finish(s: ChatState, failure: Option<string>): (r: ChatState)
    ensures !r.isLoading
    ensures r.response == s.response && r.input == s.input && r.originalPrompt == s.originalPrompt
    ensures s.isLoading && failure.Some? ==> r.error == failure.value
    ensures failure.None? || !s.isLoading ==> r.error == s.error
  {
    if !s.isLoading then s
    else if failure.Some? then s.(isLoading := false, error := failure.value)
    else s.(isLoading := false)
  }

  /** `handleClear`: empties every value except `isLoading`, which it leaves alone. */
  function Clear(s: ChatState): (r: ChatState)
    ensures r.input == "" && r.response == "" && r.error == "" && r.originalPrompt == ""
    ensures r.isLoading == s.isLoading
  {
    ChatState("", "", s.isLoading, "", "")
  }

  /**
    One event. Typing changes the input and nothing else; only typing and
    clear touch the input; only submit starts loading; a chunk only extends
    the response and changes nothing else; the normal end of a stream only
    stops loading; a failure also shows its message, when a stream was in
    flight; clear empties every value except `isLoading`.
   */
  function Step(s: ChatState, e: ChatEvent): (r: ChatState)
    ensures e.Typed? ==> r.input == e.text && r.(input := s.input) == s
    ensures !e.Typed? && !e.Cleared? ==> r.input == s.input
    ensures !e.SubmitPressed? && r.isLoading ==> s.isLoading
    ensures e.Chunk? ==> s.response <= r.response && r.(response := s.response) == s
    ensures e.StreamEnded? || e.StreamFailed? ==> !r.isLoading
    ensures e.StreamEnded? ==> r == s.(isLoading := false)
    ensures e.StreamFailed? ==> r.(error := s.error) == s.(isLoading := false)
    ensures e.StreamFailed? ==> r.error == if s.isLoading then e.message else s.error
    ensures e.Cleared? ==> r == InitialChat.(isLoading := s.isLoading)
  {
    match e
    case Typed(text) => s.(input := text)
    case SubmitPressed(store) => Submitted(s, store)
    case Chunk(content) => AppendChunk(s, content)
    case StreamEnded => Finish(s, None)
    case StreamFailed(message) => Finish(s, Some(message))
    case Cleared => Clear(s)
  }

  function Run(s: ChatState, events: seq<ChatEvent>): ChatState
    decreases |events|
  {
    if events == [] then s else Run(Step(s, events[0]), events[1..])
  }

  /** The chunk events of a stream, in order. */
  function Chunks(contents: seq<Option<string>>): (r: seq<ChatEvent>)
    ensures |r| == |contents|
    ensures forall i :: 0 <= i < |r| ==> r[i] == Chunk(contents[i])
  {
    if contents == [] then [] else [Chunk(contents[0])] + Chunks(contents[1..])
  }

  /** Concatenation of a sequence of strings. */
  function Concat(parts: seq<string>): string
    decreases |parts|
  {
    if parts == [] then "" else parts[0] + Concat(parts[1..])
  }

  /** While loading, a run of chunks appends exactly the concatenated non-empty texts. */
  lemma {:induction false} ChunksAccumulate(s: ChatState, contents: seq<Option<string>>)
    requires s.isLoading
    ensures Run(s, Chunks(contents)) == s.(response := s.response + Concat(AiService.NonEmptyChunks(contents)))
    decreases |contents|
  {
    if contents == [] {
      assert s.response + "" == s.response;
    } else {
      var s' := ChunkThenRest(s, contents);
      ChunksAccumulate(s', contents[1..]);
      ConcatOfFirstChunk(contents);
      AppendTwice(s, Concat(ChunkText(contents[0])), Concat(AiService.NonEmptyChunks(contents[1..])));
    }
  }

  /** The forwarded text of a stream is its first chunk's text followed by the rest's. */
  lemma ConcatOfFirstChunk(contents: seq<Option<string>>)
    requires contents != []
    ensures Concat(AiService.NonEmptyChunks(contents))
         == Concat(ChunkText(contents[0])) + Concat(AiService.NonEmptyChunks(contents[1..]))
  {
    var head := ChunkText(contents[0]);
    var rest := AiService.NonEmptyChunks(contents[1..]);
    assert AiService.NonEmptyChunks(contents) == head + rest;
    ConcatAppend(head, rest);
  }

  /** Appending two texts to the response one after the other appends their concatenation. */
  lemma AppendTwice(s: ChatState, a: string, b: string)
    ensures var s' := s.(response := s.response + a);
            s'.(response := s'.response + b) == s.(response := s.response + (a + b))
  {
    assert s.response + a + b == s.response + (a + b);
  }

  /** The first chunk of a non-empty stream appends its text; the rest of the stream continues from there. */
  lemma ChunkThenRest(s: ChatState, contents: seq<Option<string>>) returns (s': ChatState)
    requires s.isLoading && contents != []
    ensures s' == s.(response := s.response + Concat(ChunkText(contents[0])))
    ensures Run(s, Chunks(contents)) == Run(s', Chunks(contents[1..]))
  {
    s' := AppendChunk(s, contents[0]);
    assert Chunks(contents)[1..] == Chunks(contents[1..]);
    if ChunkText(contents[0]) != [] {
      assert Concat(ChunkText(contents[0])) == contents[0].value + "";
    }
  }

  /** The text one chunk contributes to the response: its content when that is non-empty. */
  function ChunkText(content: Option<string>): (r: seq<string>)
    ensures r != [] <==> content.Some? && Truthy(content.value)
    ensures r != [] ==> r == [content.value]
  {
    if content.Some? && Truthy(content.value) then [content.value] else []
  }

  lemma {:induction false} ConcatAppend(a: seq<string>, b: seq<string>)
    ensures Concat(a + b) == Concat(a) + Concat(b)
    decreases |a|
  {
    if a == [] {
      assert a + b == b;
    } else {
      assert (a + b)[1..] == a[1..] + b;
      ConcatAppend(a[1..], b);
    }
  }

  lemma RunOne(s: ChatState, e: ChatEvent)
    ensures Run(s, [e]) == Step(s, e)
  {
    assert [e][1..] == [];
  }

  lemma {:induction false} RunAppend(s: ChatState, a: seq<ChatEvent>, b: seq<ChatEvent>)
    ensures Run(s, a + b) == Run(Run(s, a), b)
    decreases |a|
  {
    if a == [] {
      assert a + b == b;
    } else {
      assert (a + b)[1..] == a[1..] + b;
      RunAppend(Step(s, a[0]), a[1..], b);
    }
  }

  /**
    An accepted submit with a configured key, the stream's chunks and its
    normal end: the response is the in-order concatenation of the non-empty
    chunk texts, no error is shown and loading has stopped.
   */
  lemma SessionCompletes(s: ChatState, store: Store, contents: seq<Option<string>>)
    requires CanSubmit(s) && ItemOr(store, ApiKeyItem, "") != ""
    ensures var f := Run(s, [SubmitPressed(store)] + Chunks(contents) + [StreamEnded]);
            && f.response == Concat(AiService.NonEmptyChunks(contents))
            && f.error == "" && !f.isLoading
            && f.originalPrompt == Trim(s.input) && f.input == s.input
  {
    var streamed := StartAndStream(s, store, contents);
    var f := EndStream(s, [SubmitPressed(store)] + Chunks(contents), streamed, StreamEnded);
    assert f == Finish(streamed, None);
  }

  /** The state after a run and one more event is that event's step from the run's state. */
  lemma EndStream(s: ChatState, events: seq<ChatEvent>, streamed: ChatState, last: ChatEvent) returns (f: ChatState)
    requires streamed == Run(s, events)
    ensures f == Run(s, events + [last]) && f == Step(streamed, last)
  {
    RunAppend(s, events, [last]);
    RunOne(streamed, last);
    f := Step(streamed, last);
  }

  /** The state after an accepted submit with a configured key and the stream's chunks. */
  lemma StartAndStream(s: ChatState, store: Store, contents: seq<Option<string>>) returns (streamed: ChatState)
    requires CanSubmit(s) && ItemOr(store, ApiKeyItem, "") != ""
    ensures streamed == Run(s, [SubmitPressed(store)] + Chunks(contents))
    ensures streamed.response == Concat(AiService.NonEmptyChunks(contents))
    ensures streamed.error == "" && streamed.isLoading
    ensures streamed.originalPrompt == Trim(s.input) && streamed.input == s.input
  {
    var started := Submitted(s, store);
    assert started.isLoading && started.response == "" && started.error == "";
    RunOne(s, SubmitPressed(store));
    RunAppend(s, [SubmitPressed(store)], Chunks(contents));
    ChunksAccumulate(started, contents);
    streamed := Run(started, Chunks(contents));
  }

  /**
    The hook duplicates the service's OpenAI path: it sends the request
    `generateResponse` would send for the same settings and prompt, and ends
    with exactly the concatenation of the texts the service would forward.
   */
  lemma HookAgreesWithService(s: ChatState, store: Store, contents: seq<Option<string>>)
    requires CanSubmit(s) && ItemOr(store, ApiKeyItem, "") != ""
    ensures var g := AiService.GenerateResponse("openai", store[ApiKeyItem],
                       ItemOr(store, ModelItem, FallbackModel),
                       ItemOr(store, SystemPromptItem, FallbackSystemPrompt),
                       Trim(s.input), AiService.Stream(contents, None));
            && g.request == Submit(s, store).request
            && Run(s, [SubmitPressed(store)] + Chunks(contents) + [StreamEnded]).response == Concat(g.forwarded)
            && g.thrown == None
  {
    SessionCompletes(s, store, contents);
  }

  /**
    An accepted submit whose stream throws after some chunks: the error shows
    the thrown message, the partial response is kept and loading has stopped.
   */
  lemma SessionFails(s: ChatState, store: Store, contents: seq<Option<string>>, message: string)
    requires CanSubmit(s) && ItemOr(store, ApiKeyItem, "") != ""
    ensures var f := Run(s, [SubmitPressed(store)] + Chunks(contents) + [StreamFailed(message)]);
            && f.response == Concat(AiService.NonEmptyChunks(contents))
            && f.error == message && !f.isLoading
  {
    var streamed := StartAndStream(s, store, contents);
    var f := EndStream(s, [SubmitPressed(store)] + Chunks(contents), streamed, StreamFailed(message));
    assert f == Finish(streamed, Some(message));
  }

  /**
    A submit without a usable OpenAI key ends at once: the missing-key
    message is shown, nothing is loading and no request is sent.
   */
  lemma MissingKeyFailsFast(s: ChatState, store: Store)
    requires CanSubmit(s) && (ApiKeyItem !in store || store[ApiKeyItem] == "")
    ensures var r := Submit(s, store);
            r.request == None && r.state.error == MissingKeyMessage && !r.state.isLoading
            && r.state.originalPrompt == Trim(s.input) && r.state.response == ""
  {
  }

  /** Whatever `apiProvider` says, submit behaves the same: the provider is never consulted. */
  lemma SubmitIgnoresProvider(s: ChatState, store: Store, provider: string)
    ensures Submit(s, store[ProviderItem := provider]) == Submit(s, store)
  {
    var store' := store[ProviderItem := provider];
    assert ItemOr(store', ApiKeyItem, "") == ItemOr(store, ApiKeyItem, "");
    assert ItemOr(store', ModelItem, FallbackModel) == ItemOr(store, ModelItem, FallbackModel);
    assert ItemOr(store', SystemPromptItem, FallbackSystemPrompt)
        == ItemOr(store, SystemPromptItem, FallbackSystemPrompt);
  }

  /** Clearing twice is clearing once. */
  lemma ClearIdempotent(s: ChatState)
    ensures Clear(Clear(s)) == Clear(s)
  {
  }

  /**
    Clear does not cancel the stream in flight: chunks arriving after it are
    still appended, so the response becomes the text streamed since the clear.
   */
  lemma ClearDoesNotCancelStream(s: ChatState, contents: seq<Option<string>>)
    requires s.isLoading
    ensures var f := Run(s, [Cleared] + Chunks(contents));
            f.response == Concat(AiService.NonEmptyChunks(contents)) && f.isLoading
            && f.input == "" && f.originalPrompt == ""
  {
    RunAppend(s, [Cleared], Chunks(contents));
    ChunksAccumulate(Clear(s), contents);
  }

  /** While a request is in flight no error is shown: submit empties it and only the stream's end sets it. */
  predicate SessionInvariant(s: ChatState) {
    s.isLoading ==> s.error == ""
  }

  lemma StepKeepsInvariant(s: ChatState, e: ChatEvent)
    requires SessionInvariant(s)
    ensures SessionInvariant(Step(s, e))
  {
  }

  /** Every state reachable from the initial one satisfies the session invariant. */
  lemma {:induction false} RunKeepsInvariant(s: ChatState, events: seq<ChatEvent>)
    requires SessionInvariant(s)
    ensures SessionInvariant(Run(s, events))
    decreases |events|
  {
    if events != [] {
      StepKeepsInvariant(s, events[0]);
      RunKeepsInvariant(Step(s, events[0]), events[1..]);
    }
  }
}

=== FILE: chat_view.dfy ===
/**
  What src/renderer/components/ChatInterface.jsx renders for a chat state:
  which parts of the window are present, which are disabled, and the copy
  button's label. Styling, markdown rendering and refs are not modelled.
 */
module ChatView {
  import opened Js
  import opened Chat
  import Storage
  import Copy

  const CopyLabel := "Copy Ctrl+J"
  const CopiedLabel := "\U{2713} Copied!"

  /** The parts of the chat window that depend on the state. */
  datatype View = View(
    compact: bool,                // `compact` window class, else `expanded`
    textareaDisabled: bool,
    errorBox: Option<string>,     // the error message box
    responseArea: bool,           // the scrolling response container
    markdown: Option<string>,     // the response text rendered as markdown
    thinking: bool,               // the "Thinking..." placeholder
    actionBar: bool,              // the row of action buttons
    copyButton: Option<string>,   // the copy button and its label
    clearButton: bool)

  /** Renders the chat interface for the hook's state and the copy flag. */
  function Render(c: ChatState, copySuccess: bool): (v: View)
    ensures v.compact <==> c.response == "" && c.error == ""
    ensures v.textareaDisabled <==> c.isLoading
    ensures v.errorBox.Some? <==> c.error != ""
    ensures v.errorBox.Some? ==> v.errorBox.value == c.error
    ensures v.responseArea <==> c.response != "" || c.isLoading
    ensures v.markdown.Some? <==> c.response != ""
    ensures v.markdown.Some? ==> v.markdown.value == c.response
    ensures v.thinking <==> c.isLoading && c.response == ""
    ensures v.actionBar <==> c.response != "" || c.originalPrompt != ""
    ensures v.copyButton.Some? <==> c.response != ""
    ensures v.copyButton.Some? ==> (v.copyButton.value == CopiedLabel <==> copySuccess)
    ensures v.copyButton.Some? ==> (v.copyButton.value == CopyLabel <==> !copySuccess)
    ensures v.clearButton <==> v.actionBar
  {
    var hasResponse := Truthy(c.response);
    var hasError := Truthy(c.error);
    var bar := hasResponse || Truthy(c.originalPrompt);
    View(
      !hasResponse && !hasError,
      c.isLoading,
      if hasError then Some(c.error) else None,
      hasResponse || c.isLoading,
      if hasResponse then Some(c.response) else None,
      c.isLoading && !hasResponse,
      bar,
      if hasResponse then Some(if copySuccess then CopiedLabel else CopyLabel) else None,
      bar)
  }

  /**
    Right after an accepted submit with a key configured, the window is
    compact and shows the "Thinking..." placeholder under a disabled textarea,
    with the clear button (but no copy button) available.
   */
  lemma SubmitShowsThinking(s: ChatState, store: Storage.Store, copySuccess: bool)
    requires CanSubmit(s)
    requires Submit(s, store).request.Some?
    ensures var v := Render(Submit(s, store).state, copySuccess);
            v.compact && v.thinking && v.textareaDisabled && v.errorBox == None
            && v.clearButton && v.copyButton == None
  {
  }

  /** A submit without a key shows the configuration hint and leaves the textarea enabled. */
  lemma MissingKeyShowsHint(s: ChatState, store: Storage.Store, copySuccess: bool)
    requires CanSubmit(s)
    requires Storage.ItemOr(store, Storage.ApiKeyItem, "") == ""
    ensures var v := Render(Submit(s, store).state, copySuccess);
            !v.compact && v.errorBox == Some(MissingKeyMessage) && !v.textareaDisabled
            && !v.thinking && !v.responseArea && v.clearButton
  {
  }

  /** In every state the session can reach, the error box and the placeholder never show together. */
  lemma ErrorAndThinkingExclusive(c: ChatState, copySuccess: bool)
    requires SessionInvariant(c)
    ensures var v := Render(c, copySuccess);
            !(v.errorBox.Some? && v.thinking)
  {
  }

  /** After a clear outside a request the window is compact and shows nothing below the input. */
  lemma ClearCollapsesWindow(c: ChatState, copySuccess: bool)
    requires !c.isLoading
    ensures Render(Clear(c), copySuccess)
            == View(true, false, None, false, None, false, false, None, false)
  {
  }

  /**
    A clear during a request does not collapse the stream's display: the
    placeholder stays until the next chunk arrives, but no button is offered.
   */
  lemma ClearWhileLoadingKeepsPlaceholder(c: ChatState, copySuccess: bool)
    requires c.isLoading
    ensures var v := Render(Clear(c), copySuccess);
            v.compact && v.thinking && v.textareaDisabled && !v.actionBar
  {
  }

  /** The copy button's label reflects the copy hook's flag, which a reset timer clears. */
  lemma CopyLabelFollowsFlag(c: ChatState, cs: Copy.CopyState, text: string)
    requires c.response != "" && Truthy(text)
    ensures Render(c, Copy.HandleCopy(cs, text, true).state.copySuccess).copyButton == Some(CopiedLabel)
    ensures cs.pendingResets == 0 ==> Render(c, Copy.ResetFires(Copy.HandleCopy(cs, text, true).state).copySuccess).copyButton == Some(CopyLabel)
  {
  }
}

=== FILE: combobox.dfy ===
/**
  The model field's combobox, src/renderer/components/Combobox.jsx: a text
  input with a dropdown of suggestions. Its own state is whether the dropdown
  is open. Blurring the input does not close it at once: it schedules a close
  150 ms later, and such a timer is never cancelled.
 */
module Combobox {
  import opened Js

  /** Whether the dropdown is open, and how many blur timers are still to fire. */
  datatype ComboState = ComboState(isOpen: bool, pendingCloses: nat)

  const InitialCombo := ComboState(false, 0)

  /** How long after a blur the dropdown closes, in milliseconds. */
  const BlurCloseDelayMs := 150

  datatype ComboEvent =
    | InputChanged(text: string)      // the user edits the text
    | OptionSelected(option: string)  // the user clicks a suggestion; only rendered, so only possible, while open
    | ToggleClicked                   // the chevron button
    | Focused
    | Blurred
    | CloseTimerFired                 // the oldest pending blur timer fires

  /** The new state and the value passed to the parent's `onChange`, if it was called. */
  datatype ComboOutcome = ComboOutcome(state: ComboState, changed: Option<string>)

  /**
    One event. Only editing and selecting report a value to the parent. A
    selection is accepted in any state, although the options are rendered,
    and so can be clicked, only while the list is open.
   */
  function ComboStep(s: ComboState, e: ComboEvent): (r: ComboOutcome)
    ensures r.changed.Some? <==> e.InputChanged? || e.OptionSelected?
    ensures e.InputChanged? ==> r.changed == Some(e.text) && r.state.isOpen
    ensures e.OptionSelected? ==> r.changed == Some(e.option) && !r.state.isOpen
    ensures e.ToggleClicked? ==> r.state.isOpen == !s.isOpen
    ensures e.Focused? ==> r.state.isOpen
    ensures e.Blurred? ==> r.state == ComboState(s.isOpen, s.pendingCloses + 1)
    ensures e.CloseTimerFired? && s.pendingCloses > 0 ==> r.state == ComboState(false, s.pendingCloses - 1)
    ensures e.CloseTimerFired? && s.pendingCloses == 0 ==> r.state == s
    ensures !e.Blurred? && !e.CloseTimerFired? ==> r.state.pendingCloses == s.pendingCloses
  {
    match e
    case InputChanged(text) => ComboOutcome(s.(isOpen := true), Some(text))
    case OptionSelected(option) => ComboOutcome(s.(isOpen := false), Some(option))
    case ToggleClicked => ComboOutcome(s.(isOpen := !s.isOpen), None)
    case Focused => ComboOutcome(s.(isOpen := true), None)
    case Blurred => ComboOutcome(s.(pendingCloses := s.pendingCloses + 1), None)
    case CloseTimerFired =>
      if s.pendingCloses == 0 then ComboOutcome(s, None)
      else ComboOutcome(ComboState(false, s.pendingCloses - 1), None)
  }

  /** The suggestions listed under the input: all of them while open, none otherwise or when there are none. */
  function VisibleOptions(s: ComboState, options: seq<string>): (r: seq<string>)
    ensures r != [] <==> s.isOpen && options != []
    ensures r != [] ==> r == options
  {
    if s.isOpen && |options| > 0 then options else []
  }

  /** The state after several events and the values reported to the parent, in order. */
  datatype ComboOutcomes = ComboOutcomes(state: ComboState, changes: seq<string>)

  /** Applies a sequence of events, collecting the values reported to the parent in order. */
  function ComboRun(s: ComboState, events: seq<ComboEvent>): (r: ComboOutcomes)
    ensures |r.changes| <= |events|
    decreases |events|
  {
    if events == [] then ComboOutcomes(s, [])
    else
      var first := ComboStep(s, events[0]);
      var rest := ComboRun(first.state, events[1..]);
      var reported := if first.changed.Some? then [first.changed.value] else [];
      ComboOutcomes(rest.state, reported + rest.changes)
  }

  /** Clicking the chevron twice restores the dropdown. */
  lemma ToggleTwice(s: ComboState)
    ensures ComboStep(ComboStep(s, ToggleClicked).state, ToggleClicked).state == s
  {
  }

  /**
    A blur timer is not cancelled by focusing the input again: after blur,
    refocus and the timer, the dropdown is closed although the input has focus.
   */
  lemma StaleBlurClosesAfterRefocus(s: ComboState)
    ensures var r := ComboRun(s, [Blurred, Focused, CloseTimerFired]);
            !r.state.isOpen && r.changes == [] && r.state.pendingCloses == s.pendingCloses
  {
  }

  /**
    Choosing a suggestion after focusing the input (which blurs it first)
    reports exactly that suggestion and leaves the dropdown closed once the
    blur timer has fired.
   */
  lemma PickSuggestion(s: ComboState, option: string)
    requires s.pendingCloses == 0
    ensures var r := ComboRun(s, [Focused, Blurred, OptionSelected(option), CloseTimerFired]);
            r.changes == [option] && r.state == ComboState(false, 0)
  {
    var done := ComboOutcomes(ComboState(false, 0), [option]);
    assert ComboRun(ComboState(false, 1), [CloseTimerFired]) == ComboOutcomes(ComboState(false, 0), []);
    assert ComboRun(ComboState(true, 1), [OptionSelected(option), CloseTimerFired]) == done;
    assert ComboRun(ComboState(true, 0), [Blurred, OptionSelected(option), CloseTimerFired]) == done;
  }

  /** Typing reports every keystroke's text, in order, and keeps the dropdown open. */
  lemma {:induction false} TypingReportsEveryEdit(s: ComboState, texts: seq<string>)
    requires texts != []
    ensures var r := ComboRun(s, Edits(texts));
            r.changes == texts && r.state == ComboState(true, s.pendingCloses)
    decreases |texts|
  {
    var open := ComboState(true, s.pendingCloses);
    var rest := ComboRun(open, Edits(texts[1..]));
    assert Edits(texts)[1..] == Edits(texts[1..]);
    assert ComboRun(s, Edits(texts)) == ComboOutcomes(rest.state, [texts[0]] + rest.changes);
    if |texts| > 1 {
      TypingReportsEveryEdit(open, texts[1..]);
    } else {
      assert rest == ComboOutcomes(open, []);
    }
    assert [texts[0]] + texts[1..] == texts;
  }

  /** The edit events of successive texts. */
  function Edits(texts: seq<string>): (r: seq<ComboEvent>)
    ensures |r| == |texts|
    ensures forall i :: 0 <= i < |r| ==> r[i] == InputChanged(texts[i])
  {
    if texts == [] then [] else [InputChanged(texts[0])] + Edits(texts[1..])
  }
}

=== FILE: copy.dfy ===
/**
  The copy hook of src/renderer/hooks/useCopy.js: code-fence stripping, trimming,
  the clipboard write and the transient `copySuccess` flag.

  The two global replaces of the source are modelled as left-to-right scans:
  at each position either the pattern matches (the match is dropped and the
  scan resumes after it) or one character is kept. Both patterns always match
  at least three characters, so JavaScript's empty-match handling never applies.
 */
module Copy {
  import opened Js

  /** The regular-expression class `\w`: ASCII letters, digits and underscore. */
  predicate IsWordChar(c: char) {
    ('A' <= c <= 'Z') || ('a' <= c <= 'z') || ('0' <= c <= '9') || c == '_'
  }

  /** Three backticks start at index i of s. */
  predicate FenceAt(s: string, i: int) {
    0 <= i && i + 3 <= |s| && s[i] == '`' && s[i + 1] == '`' && s[i + 2] == '`'
  }

  /** s contains no three consecutive backticks. */
  predicate NoFence(s: string) {
    forall i :: 0 <= i < |s| ==> !FenceAt(s, i)
  }

  /** How many characters greedy `[\w]*` consumes at the start of s. */
  function WordRun(s: string): (n: nat)
    ensures n <= |s|
    ensures forall i :: 0 <= i < n ==> IsWordChar(s[i])
    ensures n < |s| ==> !IsWordChar(s[n])
  {
    if s != [] && IsWordChar(s[0]) then 1 + WordRun(s[1..]) else 0
  }

  /**
    Length of the match of `/```[\w]*\n?/` at the start of s: the fence, the
    maximal run of word characters after it, and one newline if one follows.
   */
  function TaggedFenceLength(s: string): (n: nat)
    requires FenceAt(s, 0)
    ensures 3 <= n <= |s|
    ensures forall i :: 3 <= i < n - 1 ==> IsWordChar(s[i])
    ensures n > 3 ==> IsWordChar(s[n - 1]) || s[n - 1] == '\n'
    ensures n < |s| && (n == 3 || s[n - 1] != '\n') ==> !IsWordChar(s[n]) && s[n] != '\n'
  {
    var k := 3 + WordRun(s[3..]);
    if k < |s| && s[k] == '\n' then k + 1 else k
  }

  /** Length of the match of `/```\n?/` at the start of s. */
  function BareFenceLength(s: string): (n: nat)
    requires FenceAt(s, 0)
    ensures n == 3 || (n == 4 && |s| > 3 && s[3] == '\n')
    ensures n <= |s|
    ensures n == 3 ==> |s| == 3 || s[3] != '\n'
  {
    if 3 < |s| && s[3] == '\n' then 4 else 3
  }

  /** `s.replace(/```[\w]*\n?/g, '')`. */
  function StripTaggedFences(s: string): (r: string)
    ensures |r| <= |s|
    decreases |s|
  {
    if FenceAt(s, 0) then StripTaggedFences(s[TaggedFenceLength(s)..])
    else if s == [] then []
    else [s[0]] + StripTaggedFences(s[1..])
  }

  /** `s.replace(/```\n?/g, '')`. */
  function StripBareFences(s: string): (r: string)
    ensures |r| <= |s|
    decreases |s|
  {
    if FenceAt(s, 0) then StripBareFences(s[BareFenceLength(s)..])
    else if s == [] then []
    else [s[0]] + StripBareFences(s[1..])
  }

  /**
    The text handed to the clipboard: both replaces, then `trim()`. No three
    backticks remain, the text neither starts nor ends with whitespace, and
    the second replace never contributes anything.
   */
  function CleanForClipboard(text: string): (r: string)
    ensures NoFence(r)
    ensures r != [] ==> !IsWhitespace(r[0]) && !IsWhitespace(r[|r| - 1])
    ensures r == Trim(StripTaggedFences(text))
  {
    NoFenceAfterTaggedStrip(text);
    BareStripIdentity(StripTaggedFences(text));
    NoFenceInfix(Trim(StripTaggedFences(text)), StripTaggedFences(text));
    Trim(StripBareFences(StripTaggedFences(text)))
  }

  /** Dropping the first character of a fence-free string keeps it fence-free. */
  lemma NoFenceTail(s: string)
    requires s != [] && NoFence(s)
    ensures NoFence(s[1..])
  {
    forall i | 0 <= i < |s[1..]| ensures !FenceAt(s[1..], i) {
      assert !FenceAt(s, i + 1);
    }
  }

  /** Every block of a fence-free string is fence-free. */
  lemma NoFenceInfix(r: string, s: string)
    requires IsInfix(r, s) && NoFence(s)
    ensures NoFence(r)
  {
    var i :| 0 <= i <= |s| && InfixAt(r, s, i);
    forall j | 0 <= j < |r| ensures !FenceAt(r, j) {
      assert !FenceAt(s, i + j);
    }
  }

  /**
    No three backticks survive the first replace: a kept character that is a
    backtick can never be followed by two more kept backticks, because the
    three would have formed a fence the scan matches first.
   */
  lemma {:induction false} NoFenceAfterTaggedStrip(s: string)
    ensures NoFence(StripTaggedFences(s))
    decreases |s|
  {
    if FenceAt(s, 0) {
      NoFenceAfterTaggedStrip(s[TaggedFenceLength(s)..]);
    } else if s != [] {
      var rest := StripTaggedFences(s[1..]);
      var r := [s[0]] + rest;
      NoFenceAfterTaggedStrip(s[1..]);
      KeptHeadStartsNoFence(s);
      forall i | 0 <= i < |r| ensures !FenceAt(r, i) {
        if i > 0 {
          assert !FenceAt(rest, i - 1);
        }
      }
    }
  }

  /** A first character that is not a backtick is kept by the first replace. */
  lemma KeptHead(s: string)
    requires s != [] && s[0] != '`'
    ensures StripTaggedFences(s) == [s[0]] + StripTaggedFences(s[1..])
  {
    assert !FenceAt(s, 0);
  }

  /**
    When the scan keeps the first character of s, no fence starts at the
    front of the output.
   */
  lemma KeptHeadStartsNoFence(s: string)
    requires s != [] && !FenceAt(s, 0)
    ensures !FenceAt([s[0]] + StripTaggedFences(s[1..]), 0)
  {
    var t := s[1..];
    if s[0] == '`' && t != [] {
      if t[0] != '`' {
        KeptHead(t);
      } else {
        assert !FenceAt(t, 0);
        assert StripTaggedFences(t) == [t[0]] + StripTaggedFences(t[1..]);
        var u := t[1..];
        if u != [] {
          assert u[0] == s[2];
          KeptHead(u);
        }
      }
    }
  }

  /** On fence-free text the second replace changes nothing. */
  lemma {:induction false} BareStripIdentity(s: string)
    requires NoFence(s)
    ensures StripBareFences(s) == s
    decreases |s|
  {
    if s != [] {
      assert !FenceAt(s, 0);
      NoFenceTail(s);
      BareStripIdentity(s[1..]);
    }
  }

  /** On fence-free text the first replace changes nothing either. */
  lemma {:induction false} TaggedStripIdentity(s: string)
    requires NoFence(s)
    ensures StripTaggedFences(s) == s
    decreases |s|
  {
    if s != [] {
      assert !FenceAt(s, 0);
      NoFenceTail(s);
      TaggedStripIdentity(s[1..]);
    }
  }

  /** Cleaning its own output gives the same text: clean-then-trim is idempotent. */
  lemma CleanIdempotent(text: string)
    ensures CleanForClipboard(CleanForClipboard(text)) == CleanForClipboard(text)
  {
    var c := CleanForClipboard(text);
    TaggedStripIdentity(c);
    TrimOfTrimmed(c);
  }

  /** Characters other than a backtick are always kept by the first replace. */
  lemma {:induction false} TaggedStripKeepsPlainPrefix(p: string, rest: string)
    requires forall i :: 0 <= i < |p| ==> p[i] != '`'
    ensures StripTaggedFences(p + rest) == p + StripTaggedFences(rest)
    decreases |p|
  {
    if p != [] {
      var s := p + rest;
      assert s[0] == p[0];
      assert s[1..] == p[1..] + rest;
      KeptHead(s);
      TaggedStripKeepsPlainPrefix(p[1..], rest);
      assert [p[0]] + p[1..] == p;
    } else {
      assert p + rest == rest;
    }
  }

  /** The word run stops exactly at the first character outside `\w`. */
  lemma WordRunOfTag(w: string, x: string)
    requires forall i :: 0 <= i < |w| ==> IsWordChar(w[i])
    requires x != [] && !IsWordChar(x[0])
    ensures WordRun(w + x) == |w|
  {
    var s := w + x;
    assert forall i :: 0 <= i < |w| ==> IsWordChar(s[i]);
    assert !IsWordChar(s[|w|]);
  }

  /**
    A fence, a word tag, a newline, backtick-free code and a closing fence:
    the first replace leaves exactly the code.
   */
  lemma StripTaggedBlock(open: string, tag: string, nl: string, code: string, close: string)
    requires open == "```" && close == "```" && nl == "\n"
    requires forall i :: 0 <= i < |tag| ==> IsWordChar(tag[i])
    requires forall i :: 0 <= i < |code| ==> code[i] != '`'
    ensures StripTaggedFences(open + tag + nl + code + close) == code
  {
    var s := open + tag + nl + code + close;
    assert FenceAt(s, 0);
    assert s[3..] == tag + (nl + code + close);
    WordRunOfTag(tag, nl + code + close);
    assert s[3 + |tag|] == '\n';
    assert TaggedFenceLength(s) == 4 + |tag|;
    assert s[4 + |tag|..] == code + close;
    TaggedStripKeepsPlainPrefix(code, close);
    assert StripTaggedFences(close) == [];
    assert code + [] == code;
  }

  /**
    Round trip of a fenced block: a fence with a word tag and a newline,
    backtick-free code, and a closing fence copy as the trimmed code.
   */
  lemma CleanTaggedBlock(open: string, tag: string, nl: string, code: string, close: string)
    requires open == "```" && close == "```" && nl == "\n"
    requires forall i :: 0 <= i < |tag| ==> IsWordChar(tag[i])
    requires forall i :: 0 <= i < |code| ==> code[i] != '`'
    ensures CleanForClipboard(open + tag + nl + code + close) == Trim(code)
  {
    StripTaggedBlock(open, tag, nl, code, close);
  }

  /**
    Only the word characters of a tag belong to the match: whatever follows
    them (here a tag like `c++`) is kept, starting at its first non-word character.
   */
  lemma NonWordTagSurvives(open: string, word: string, rest: string, close: string)
    requires open == "```" && close == "```"
    requires forall i :: 0 <= i < |word| ==> IsWordChar(word[i])
    requires rest != [] && !IsWordChar(rest[0]) && rest[0] != '\n'
    requires forall i :: 0 <= i < |rest| ==> rest[i] != '`'
    ensures StripTaggedFences(open + word + rest + close) == rest
  {
    var s := open + word + rest + close;
    assert FenceAt(s, 0);
    assert s[3..] == word + (rest + close);
    WordRunOfTag(word, rest + close);
    assert s[3 + |word|] == rest[0];
    assert TaggedFenceLength(s) == 3 + |word|;
    assert s[3 + |word|..] == rest + close;
    TaggedStripKeepsPlainPrefix(rest, close);
    assert StripTaggedFences(close) == [];
    assert rest + [] == rest;
  }

  /**
    The `copySuccess` flag and the number of reset timers scheduled but not
    yet fired (each successful copy schedules one; none is ever cancelled).
   */
  datatype CopyState = CopyState(copySuccess: bool, pendingResets: nat)

  const InitialCopy := CopyState(false, 0)

  /**
    What one call of `handleCopy` does: the new state and the argument passed
    to `navigator.clipboard.writeText`, if it was called. The call is made
    whether or not the write then succeeds.
   */
  datatype CopyResult = CopyResult(state: CopyState, written: Option<string>)

  /** Each successful copy schedules a reset after this many milliseconds. */
  const ResetDelayMs := 2000

  /** The flag is only ever true while a reset is still to come. */
  predicate CopyInvariant(s: CopyState) {
    s.copySuccess ==> s.pendingResets > 0
  }

  /**
    `handleCopy(text)`: empty text is a no-op; otherwise `writeText` is called
    with the cleaned text, and only a successful write sets the flag and
    schedules a reset.
   */
  function HandleCopy(s: CopyState, text: string, writeSucceeds: bool): (r: CopyResult)
    ensures !Truthy(text) ==> r.state == s && r.written == None
    ensures Truthy(text) ==> r.written == Some(CleanForClipboard(text))
    ensures Truthy(text) && writeSucceeds ==> r.state == CopyState(true, s.pendingResets + 1)
    ensures !writeSucceeds ==> r.state == s
    ensures CopyInvariant(s) ==> CopyInvariant(r.state)
  {
    if !Truthy(text) then CopyResult(s, None)
    else
      var cleaned := CleanForClipboard(text);
      if writeSucceeds then CopyResult(CopyState(true, s.pendingResets + 1), Some(cleaned))
      else CopyResult(s, Some(cleaned))
  }

  /** The oldest pending reset timer fires: the flag goes back to false. */
  function ResetFires(s: CopyState): (r: CopyState)
    ensures s.pendingResets > 0 ==> !r.copySuccess && r.pendingResets == s.pendingResets - 1
    ensures s.pendingResets == 0 ==> r == s
    ensures CopyInvariant(s) ==> CopyInvariant(r)
  {
    if s.pendingResets == 0 then s else CopyState(false, s.pendingResets - 1)
  }

  /**
    Timers are not restarted: after two successful copies, the reset of the
    first one already clears the flag while the second reset is still pending.
   */
  lemma SecondCopyDoesNotExtendWindow(s: CopyState, a: string, b: string)
    requires Truthy(a) && Truthy(b)
    ensures var once := HandleCopy(s, a, true).state;
            var twice := HandleCopy(once, b, true).state;
            var fired := ResetFires(twice);
            !fired.copySuccess && fired.pendingResets == s.pendingResets + 1
  {
  }

  /** The example the copy hook is written for: a fenced Python snippet copies as its one line. */
  lemma CleanPythonExample()
    ensures CleanForClipboard("```" + "python" + "\n" + ("print(1)" + "\n") + "```") == "print(1)"
  {
    CleanTaggedBlock("```", "python", "\n", "print(1)" + "\n", "```");
    TrimTrailingNewline("print(1)");
  }

  /** Only the `c++` tag's word part is dropped: "```c++\nx```" copies its `++\nx`. */
  lemma NonWordTagExample()
    ensures StripTaggedFences("```" + "c" + "++\nx" + "```") == "++\nx"
  {
    NonWordTagSurvives("```", "c", "++\nx", "```");
  }

  lemma TrimTrailingNewline(s: string)
    requires s != [] && !IsWhitespace(s[0]) && !IsWhitespace(s[|s| - 1])
    ensures Trim(s + "\n") == s
  {
    var t := s + "\n";
    assert SkipWhitespace(t, 0) == 0;
    assert SkipWhitespaceBack(t, |t| - 1) == |t| - 1;
    assert SkipWhitespaceBack(t, |t|) == |t| - 1;
    assert t[0..|t| - 1] == s;
  }
}

=== FILE: js.dfy ===
/**
  The small part of JavaScript's built-in behaviour that the overlay relies on:
  optional values, thrown errors, truthiness of strings (`a || b`) and
  `String.prototype.trim`.
 */
module Js {

  /** A value that may be absent (`null`/`undefined` in the source). */
  datatype Option<+T> = None | Some(value: T)

  /** The outcome of a call that may throw an `Error` carrying a message. */
  datatype Result<+T> = Ok(value: T) | Err(message: string)

  /** A string is falsy in JavaScript exactly when it is empty. */
  predicate Truthy(s: string) {
    s != []
  }

  /** `a || fallback` for an optional string: the fallback replaces an absent or empty value. */
  function OrElse(a: Option<string>, fallback: string): (r: string)
    ensures a.Some? && Truthy(a.value) ==> r == a.value
    ensures a.None? || !Truthy(a.value) ==> r == fallback
  {
    if a.Some? && Truthy(a.value) then a.value else fallback
  }

  /**
    The code points `String.prototype.trim` removes: ECMAScript WhiteSpace
    (TAB, VT, FF, SP, NBSP, ZWNBSP and the Zs category) and LineTerminator
    (LF, CR, LS, PS).
   */
  predicate IsWhitespace(c: char) {
    || c == '\t' || c == '\n' || c == '\U{000B}' || c == '\U{000C}' || c == '\r'
    || c == ' ' || c == '\U{00A0}' || c == '\U{1680}'
    || ('\U{2000}' <= c <= '\U{200A}')
    || c == '\U{2028}' || c == '\U{2029}' || c == '\U{202F}' || c == '\U{205F}'
    || c == '\U{3000}' || c == '\U{FEFF}'
  }

  predicate AllWhitespace(s: string) {
    forall i :: 0 <= i < |s| ==> IsWhitespace(s[i])
  }

  /** The index of the first non-white-space character at or after i, or |s| when there is none. */
  function SkipWhitespace(s: string, i: nat): (n: nat)
    requires i <= |s|
    ensures i <= n <= |s|
    ensures forall k :: i <= k < n ==> IsWhitespace(s[k])
    ensures n < |s| ==> !IsWhitespace(s[n])
    decreases |s| - i
  {
    if i == |s| || !IsWhitespace(s[i]) then i else SkipWhitespace(s, i + 1)
  }

  /** The index just past the last non-white-space character before j, or 0 when there is none. */
  function SkipWhitespaceBack(s: string, j: nat): (n: nat)
    requires j <= |s|
    ensures n <= j
    ensures forall k :: n <= k < j ==> IsWhitespace(s[k])
    ensures n > 0 ==> !IsWhitespace(s[n - 1])
    decreases j
  {
    if j == 0 || !IsWhitespace(s[j - 1]) then j else SkipWhitespaceBack(s, j - 1)
  }

  /** r occurs in s as a contiguous block. */
  predicate IsInfix(r: string, s: string) {
    exists i :: 0 <= i <= |s| && InfixAt(r, s, i)
  }

  /** r occurs in s starting at index i. */
  predicate InfixAt(r: string, s: string, i: int) {
    0 <= i <= |s| - |r| && s[i..i + |r|] == r
  }

  /** r is s with the white space before index i and after r's end removed. */
  predicate TrimmedAt(r: string, s: string, i: int) {
    && InfixAt(r, s, i)
    && (forall k :: 0 <= k < i ==> IsWhitespace(s[k]))
    && (forall k :: i + |r| <= k < |s| ==> IsWhitespace(s[k]))
  }

  /**
    `s.trim()`: the result is s with only white space removed at both ends,
    it neither starts nor ends with white space, and it is empty exactly when
    s is all white space.
   */
  function Trim(s: string): (r: string)
    ensures exists i :: TrimmedAt(r, s, i)
    ensures IsInfix(r, s)
    ensures r != [] ==> !IsWhitespace(r[0]) && !IsWhitespace(r[|r| - 1])
    ensures r == [] <==> AllWhitespace(s)
  {
    var a := SkipWhitespace(s, 0);
    if a == |s| then
      assert TrimmedAt([], s, a);
      []
    else
      var b := SkipWhitespaceBack(s, |s|);
      assert a < b;
      assert TrimmedAt(s[a..b], s, a);
      s[a..b]
  }

  /** Trimming a string that neither starts nor ends with whitespace leaves it alone. */
  lemma TrimOfTrimmed(s: string)
    requires s != [] ==> !IsWhitespace(s[0]) && !IsWhitespace(s[|s| - 1])
    ensures Trim(s) == s
  {
    if s != [] {
      assert SkipWhitespace(s, 0) == 0;
      assert SkipWhitespaceBack(s, |s|) == |s|;
      assert s[0..|s|] == s;
    }
  }

  /** `trim` is idempotent. */
  lemma TrimIdempotent(s: string)
    ensures Trim(Trim(s)) == Trim(s)
  {
    TrimOfTrimmed(Trim(s));
  }
}

=== FILE: main_window.dfy ===
/**
  The window handling of main.js: the `isWindowVisible` flag, whether
  `mainWindow` is set, the show/hide/toggle/blur/closed transitions, the
  centring arithmetic of the resize handler and the macOS quit interception.
 */
module MainWindow {
  import opened Js

  /** `mainWindow !== null` and `isWindowVisible`. */
  datatype WindowState = WindowState(windowExists: bool, isWindowVisible: bool)

  /** Before `createWindow` runs there is no window and the flag is false. */
  const InitialWindow := WindowState(false, false)

  /** `createWindow`: the window is created hidden (`show: false`). */
  function Created(s: WindowState): (r: WindowState)
    ensures r.windowExists && r.isWindowVisible == s.isWindowVisible
  {
    s.(windowExists := true)
  }

  /** `showWindow`: only a window that exists is shown. */
  function Show(s: WindowState): (r: WindowState)
    ensures s.windowExists ==> r == WindowState(true, true)
    ensures !s.windowExists ==> r == s
  {
    if s.windowExists then s.(isWindowVisible := true) else s
  }

  /** `hideWindow`: only a window that exists is hidden. */
  function Hide(s: WindowState): (r: WindowState)
    ensures s.windowExists ==> r == WindowState(true, false)
    ensures !s.windowExists ==> r == s
  {
    if s.windowExists then s.(isWindowVisible := false) else s
  }

  /** `toggleWindow`: hide when the flag says visible, show otherwise. */
  function Toggle(s: WindowState): (r: WindowState)
    ensures s.windowExists ==> r == WindowState(true, !s.isWindowVisible)
    ensures !s.windowExists ==> r == s
  {
    if s.isWindowVisible then Hide(s) else Show(s)
  }

  /** The window's `blur` handler: hide only when visible. */
  function OnBlur(s: WindowState): (r: WindowState)
    ensures !s.isWindowVisible ==> r == s
    ensures s.isWindowVisible ==> r == Hide(s)
  {
    if s.isWindowVisible then Hide(s) else s
  }

  /** The window's `closed` handler: `mainWindow = null`; the flag is not touched. */
  function OnClosed(s: WindowState): (r: WindowState)
    ensures !r.windowExists && r.isWindowVisible == s.isWindowVisible
  {
    s.(windowExists := false)
  }

  /** What `before-quit` does: the new state and whether the quit is cancelled. */
  datatype QuitOutcome = QuitOutcome(state: WindowState, quitPrevented: bool)

  /** `before-quit`: on macOS the quit is cancelled and the window hidden; elsewhere nothing happens. */
  function BeforeQuit(s: WindowState, platform: string): (r: QuitOutcome)
    ensures r.quitPrevented <==> platform == "darwin"
    ensures platform == "darwin" ==> r.state == Hide(s)
    ensures platform != "darwin" ==> r.state == s
  {
    if platform == "darwin" then QuitOutcome(Hide(s), true) else QuitOutcome(s, false)
  }

  /** The flag starts false, and the first toggle after creation shows the window. */
  lemma StartsHidden()
    ensures !InitialWindow.isWindowVisible && !Created(InitialWindow).isWindowVisible
    ensures Toggle(Created(InitialWindow)) == WindowState(true, true)
  {
  }

  /** Hiding twice is hiding once. */
  lemma HideIdempotent(s: WindowState)
    ensures Hide(Hide(s)) == Hide(s)
  {
  }

  /** With a window, toggling twice returns to the starting state. */
  lemma ToggleTwice(s: WindowState)
    requires s.windowExists
    ensures Toggle(Toggle(s)) == s
  {
  }

  /** Blur while hidden is a no-op; blur while visible leaves the flag false whenever a window exists. */
  lemma BlurHides(s: WindowState)
    ensures OnBlur(s).windowExists == s.windowExists
    ensures s.windowExists ==> !OnBlur(s).isWindowVisible
  {
  }

  /** After `closed`, show, hide, toggle and blur no longer change anything. */
  lemma ClosedWindowIsInert(s: WindowState)
    ensures var c := OnClosed(s);
            Show(c) == c && Hide(c) == c && Toggle(c) == c && OnBlur(c) == c
  {
  }

  /**
    Once the window has been created, the flag records exactly whether the
    window was last shown: it is true after show and false after hide,
    blur and a macOS quit.
   */
  lemma VisibilityFollowsLastCommand(s: WindowState)
    requires s.windowExists
    ensures Show(s).isWindowVisible && !Hide(s).isWindowVisible
    ensures !OnBlur(s).isWindowVisible && !BeforeQuit(s, "darwin").state.isWindowVisible
  {
  }

  /** `Math.round`: the nearest integer, halves rounded up (towards positive infinity). */
  function Round(x: real): (r: int)
    ensures r as real - 0.5 <= x < r as real + 0.5
  {
    (x + 0.5).Floor
  }

  /** `Math.round(d / 2)` for an integer d is the floor of (d + 1) / 2. */
  lemma RoundHalf(d: int)
    ensures Round(d as real / 2.0) == (d + 1) / 2
  {
    var q := (d + 1) / 2;
    var m := (d + 1) % 2;
    assert d + 1 == 2 * q + m;
    assert d as real / 2.0 + 0.5 == q as real + m as real / 2.0;
  }

  /** The window bounds `setBounds` receives. */
  datatype Bounds = Bounds(x: int, y: int, width: int, height: int)

  /**
    The `resize-window` handler: nothing without a window; otherwise the
    requested size, centred with `Math.round` in a rectangle of the work
    area's size anchored at the screen origin (the work area's own x and y
    are never read). The left margin equals the right one or exceeds it by
    one pixel; so do the top and bottom margins.
   */
  function Resize(s: WindowState, screenWidth: int, screenHeight: int, width: int, height: int): (r: Option<Bounds>)
    ensures r.Some? <==> s.windowExists
    ensures r.Some? ==> r.value.width == width && r.value.height == height
    ensures r.Some? ==> r.value.x == (screenWidth - width + 1) / 2 && r.value.y == (screenHeight - height + 1) / 2
    ensures r.Some? ==> var left, right := r.value.x, screenWidth - width - r.value.x;
                        left == right || left == right + 1
    ensures r.Some? ==> var top, bottom := r.value.y, screenHeight - height - r.value.y;
                        top == bottom || top == bottom + 1
  {
    if !s.windowExists then None
    else
      RoundHalf(screenWidth - width);
      RoundHalf(screenHeight - height);
      var x := Round((screenWidth - width) as real / 2.0);
      var y := Round((screenHeight - height) as real / 2.0);
      Some(Bounds(x, y, width, height))
  }
}

=== FILE: overlay.dfy ===
/**
  The top-level component, src/renderer/components/Overlay.jsx: it owns the
  chat session, the copy flag and whether the settings panel is shown, maps
  keyboard shortcuts to actions, asks the main process for a new window size
  when the mode changes, and clears the chat on mount unless the user turned
  that off.
 */
module Overlay {
  import opened Js
  import opened Storage
  import Chat
  import Copy
  import Settings
  import AiService
  import MainWindow

  /** The parts of a `keydown` event the shortcuts look at. */
  datatype KeyEvent = KeyEvent(key: string, shiftKey: bool, ctrlKey: bool)

  datatype KeyAction =
    | SubmitChat
    | CloseSettings
    | HideWindow
    | OpenSettings
    | CopyResponse
    | ClearChat
    | FocusInput
    | NoAction

  /**
    The document-level `keydown` handler. Enter without Shift submits in
    either mode; Escape leaves the settings or, from the chat, hides the
    window; Ctrl with ",", "j", "k" or "l" opens the settings, copies, clears
    or focuses the input. Letters are compared exactly, so Ctrl+J with Shift
    or Caps Lock does nothing.
   */
  function KeyActionFor(e: KeyEvent, showSettings: bool): (a: KeyAction)
    ensures a == SubmitChat <==> e.key == "Enter" && !e.shiftKey
    ensures a == CloseSettings <==> e.key == "Escape" && showSettings
    ensures a == HideWindow <==> e.key == "Escape" && !showSettings
    ensures a == OpenSettings <==> e.ctrlKey && e.key == ","
    ensures a == CopyResponse <==> e.ctrlKey && e.key == "j"
    ensures a == ClearChat <==> e.ctrlKey && e.key == "k"
    ensures a == FocusInput <==> e.ctrlKey && e.key == "l"
    ensures a == NoAction <==>
      && (e.key != "Enter" || e.shiftKey) && e.key != "Escape"
      && (!e.ctrlKey || (e.key != "," && e.key != "j" && e.key != "k" && e.key != "l"))
  {
    if e.key == "Enter" && !e.shiftKey then SubmitChat
    else if e.key == "Escape" then (if showSettings then CloseSettings else HideWindow)
    else if e.ctrlKey && e.key == "," then OpenSettings
    else if e.ctrlKey && e.key == "j" then CopyResponse
    else if e.ctrlKey && e.key == "k" then ClearChat
    else if e.ctrlKey && e.key == "l" then FocusInput
    else NoAction
  }

  /** Shift+Enter is no shortcut at all, in either mode. */
  lemma ShiftEnterDoesNothing(ctrlKey: bool, showSettings: bool)
    ensures KeyActionFor(KeyEvent("Enter", true, ctrlKey), showSettings) == NoAction
  {
  }

  /** Only Escape means different things in the two modes. */
  lemma OnlyEscapeDependsOnMode(e: KeyEvent)
    requires e.key != "Escape"
    ensures KeyActionFor(e, true) == KeyActionFor(e, false)
  {
  }

  /** A window size requested from the main process. */
  datatype Size = Size(width: int, height: int)

  const ChatSize := Size(600, 450)
  const SettingsSize := Size(600, 950)

  /** The size the resize effect asks for in each mode. */
  function SizeFor(showSettings: bool): (r: Size)
    ensures r.width == 600
    ensures showSettings ==> r.height > ChatSize.height
    ensures r == ChatSize <==> !showSettings
  {
    if showSettings then SettingsSize else ChatSize
  }

  /**
    The resize effect: it runs on mount and again whenever the mode changes.
    `previous` is the mode of the last run, absent on mount.
   */
  function ResizeEffect(previous: Option<bool>, showSettings: bool): (r: Option<Size>)
    ensures r.Some? <==> previous != Some(showSettings)
    ensures r.Some? ==> r.value == SizeFor(showSettings)
  {
    if previous == Some(showSettings) then None else Some(SizeFor(showSettings))
  }

  /** The mount effect: the chat is cleared unless clear-on-reload is stored as "false". */
  function OnMount(chat: Chat.ChatState, store: Store): (r: Chat.ChatState)
    ensures Settings.ClearOnReloadSetting(store) ==> r.input == "" && r.response == "" && r.error == "" && r.originalPrompt == ""
    ensures !Settings.ClearOnReloadSetting(store) ==> r == chat
    ensures r.isLoading == chat.isLoading
  {
    if Settings.ClearOnReloadSetting(store) then Chat.Clear(chat) else chat
  }

  /** On a fresh page the hook's state is already empty, so the mount clear changes nothing. */
  lemma MountClearIsNoOp(store: Store)
    ensures OnMount(Chat.InitialChat, store) == Chat.InitialChat
  {
  }

  /**
    An emptied system prompt is shown by the panel as its four-rule default,
    but the chat hook then sends its own three-rule fallback instead.
   */
  lemma EmptiedPromptDiverges(p: Settings.PanelState, store: Store)
    ensures var r := Settings.PanelStep(p, store, Settings.SystemPromptEdited("")).store;
            && Settings.Load(r).systemPrompt == Settings.DefaultSystemPrompt
            && ItemOr(r, SystemPromptItem, Chat.FallbackSystemPrompt) == Chat.FallbackSystemPrompt
            && Settings.DefaultSystemPrompt != Chat.FallbackSystemPrompt
  {
    assert |Settings.DefaultSystemPrompt| == 706;
  }

  /** Everything the overlay and the hooks it uses hold. */
  datatype OverlayState = OverlayState(
    showSettings: bool,
    chat: Chat.ChatState,
    copy: Copy.CopyState,
    panel: Settings.PanelState,          // meaningful while the settings are shown
    store: Store,
    window: MainWindow.WindowState)

  datatype OverlayEvent =
    | KeyPressed(e: KeyEvent, writeSucceeds: bool)   // whether a clipboard write would succeed
    | CopyClicked(writeSucceeds: bool)               // the copy button
    | ClearClicked                                   // the clear button
    | SettingsButtonClicked                          // the gear button
    | SettingsCloseClicked                           // the panel's "esc" button
    | TextareaChanged(text: string)
    | StreamChunk(content: Option<string>)
    | StreamEnded
    | StreamFailed(message: string)
    | CopyResetFired
    | PanelEdited(edit: Settings.Edit)

  /** The effects of one event besides the new state. */
  datatype OverlayOutcome = OverlayOutcome(
    state: OverlayState,
    request: Option<AiService.Request>,  // a chat request sent
    clipboard: Option<string>,           // the argument of a `writeText` call, successful or not
    resize: Option<Size>)                // a window size requested

  /** Switches the mode; opening the settings mounts the panel, which loads the store. */
  function SetShowSettings(o: OverlayState, show: bool): (r: OverlayOutcome)
    ensures r.state.showSettings == show && r.request == None && r.clipboard == None
    ensures r.resize == ResizeEffect(Some(o.showSettings), show)
    ensures show && !o.showSettings ==> r.state.panel == Settings.Load(o.store)
    ensures !(show && !o.showSettings) ==> r.state.panel == o.panel
    ensures r.state.chat == o.chat && r.state.store == o.store && r.state.window == o.window
    ensures r.state.copy == o.copy
  {
    var panel := if show && !o.showSettings then Settings.Load(o.store) else o.panel;
    OverlayOutcome(o.(showSettings := show, panel := panel), None, None, ResizeEffect(Some(o.showSettings), show))
  }

  function Quiet(o: OverlayState): OverlayOutcome {
    OverlayOutcome(o, None, None, None)
  }

  /** Runs one action of the keyboard or the buttons. */
  function Perform(o: OverlayState, a: KeyAction, writeSucceeds: bool): (r: OverlayOutcome)
    ensures a == SubmitChat ==>
      && r.state == o.(chat := Chat.Submit(o.chat, o.store).state)
      && r.request == Chat.Submit(o.chat, o.store).request
    ensures a == HideWindow ==> r.state == o.(window := MainWindow.Hide(o.window)) && r.resize == None
    ensures a == CopyResponse ==>
      var c := Copy.HandleCopy(o.copy, o.chat.response, writeSucceeds);
      r.state == o.(copy := c.state) && r.clipboard == c.written
    ensures a == ClearChat ==> r.state == o.(chat := Chat.Clear(o.chat))
    ensures a == OpenSettings ==> r == SetShowSettings(o, true)
    ensures a == CloseSettings ==> r == SetShowSettings(o, false)
    ensures a == FocusInput || a == NoAction ==> r == Quiet(o)
    ensures a != SubmitChat ==> r.request == None
    ensures a != CopyResponse ==> r.clipboard == None
  {
    match a
    case SubmitChat =>
      var sub := Chat.Submit(o.chat, o.store);
      OverlayOutcome(o.(chat := sub.state), sub.request, None, None)
    case CloseSettings => SetShowSettings(o, false)
    case HideWindow => Quiet(o.(window := MainWindow.Hide(o.window)))
    case OpenSettings => SetShowSettings(o, true)
    case CopyResponse =>
      var c := Copy.HandleCopy(o.copy, o.chat.response, writeSucceeds);
      OverlayOutcome(o.(copy := c.state), None, c.written, None)
    case ClearChat => Quiet(o.(chat := Chat.Clear(o.chat)))
    case FocusInput => Quiet(o)
    case NoAction => Quiet(o)
  }

  /**
    One event. The buttons do what their shortcuts do; typing is the chat
    hook's `setInput`; stream events go to the chat hook and the copy reset
    to the copy hook, each changing nothing else; panel edits only arrive
    while the panel is shown.
   */
  function OverlayStep(o: OverlayState, ev: OverlayEvent): (r: OverlayOutcome)
    ensures ev.KeyPressed? ==> r == Perform(o, KeyActionFor(ev.e, o.showSettings), ev.writeSucceeds)
    ensures ev.CopyClicked? ==> r == Perform(o, CopyResponse, ev.writeSucceeds)
    ensures ev.ClearClicked? ==> r == Perform(o, ClearChat, false)
    ensures ev.SettingsButtonClicked? ==> r == SetShowSettings(o, true)
    ensures ev.SettingsCloseClicked? ==> r == SetShowSettings(o, false)
    ensures !ev.KeyPressed? ==> r.request == None
    ensures ev.PanelEdited? && o.showSettings ==>
      var p := Settings.PanelStep(o.panel, o.store, ev.edit);
      r.state == o.(panel := p.panel, store := p.store)
    ensures ev.PanelEdited? && !o.showSettings ==> r == Quiet(o)
    ensures ev.TextareaChanged? ==> r == Quiet(o.(chat := o.chat.(input := ev.text)))
    ensures ev.StreamChunk? ==> r == Quiet(o.(chat := Chat.AppendChunk(o.chat, ev.content)))
    ensures ev.StreamEnded? ==> r == Quiet(o.(chat := Chat.Finish(o.chat, None)))
    ensures ev.StreamFailed? ==> r == Quiet(o.(chat := Chat.Finish(o.chat, Some(ev.message))))
    ensures ev.CopyResetFired? ==> r == Quiet(o.(copy := Copy.ResetFires(o.copy)))
    ensures !ev.PanelEdited? ==> r.state.store == o.store
  {
    match ev
    case KeyPressed(e, writeSucceeds) => Perform(o, KeyActionFor(e, o.showSettings), writeSucceeds)
    case CopyClicked(writeSucceeds) => Perform(o, CopyResponse, writeSucceeds)
    case ClearClicked => Perform(o, ClearChat, false)
    case SettingsButtonClicked => SetShowSettings(o, true)
    case SettingsCloseClicked => SetShowSettings(o, false)
    case TextareaChanged(text) => Quiet(o.(chat := Chat.Step(o.chat, Chat.Typed(text))))
    case StreamChunk(content) => Quiet(o.(chat := Chat.Step(o.chat, Chat.Chunk(content))))
    case StreamEnded => Quiet(o.(chat := Chat.Step(o.chat, Chat.StreamEnded)))
    case StreamFailed(message) => Quiet(o.(chat := Chat.Step(o.chat, Chat.StreamFailed(message))))
    case CopyResetFired => Quiet(o.(copy := Copy.ResetFires(o.copy)))
    case PanelEdited(edit) =>
      if o.showSettings then
        var p := Settings.PanelStep(o.panel, o.store, edit);
        Quiet(o.(panel := p.panel, store := p.store))
      else Quiet(o)
  }

  const Enter := KeyEvent("Enter", false, false)
  const Escape := KeyEvent("Escape", false, false)
  const CtrlComma := KeyEvent(",", false, true)
  const CtrlK := KeyEvent("k", false, true)

  /**
    Ctrl+, in the chat view opens the settings: the panel loads the store,
    the settings size is requested, and the chat, copy flag, store and
    window are left alone.
   */
  lemma CtrlCommaOpensSettings(o: OverlayState, writeSucceeds: bool)
    requires !o.showSettings
    ensures var r := OverlayStep(o, KeyPressed(CtrlComma, writeSucceeds));
            && r.state == o.(showSettings := true, panel := Settings.Load(o.store))
            && r.resize == Some(SettingsSize) && r.request == None && r.clipboard == None
  {
  }

  /**
    Ctrl+K between two chunks of a stream in flight empties the response,
    but the stream goes on: the later chunk's text is appended to the
    emptied response and the session is still loading.
   */
  lemma ClearBetweenChunksStillAppends(o: OverlayState, a: string, b: string)
    requires o.chat.isLoading && b != ""
    ensures var first := OverlayStep(o, StreamChunk(Some(a))).state;
            var cleared := OverlayStep(first, KeyPressed(CtrlK, false)).state;
            var last := OverlayStep(cleared, StreamChunk(Some(b))).state;
            && cleared.chat.response == ""
            && last.chat.response == b && last.chat.isLoading
            && last.chat.input == "" && last.copy == o.copy
  {
  }

  /**
    Escape first leaves the settings (asking for the chat size) and only a
    second Escape hides the window.
   */
  lemma EscapeLeavesSettingsFirst(o: OverlayState)
    requires o.showSettings
    ensures var first := OverlayStep(o, KeyPressed(Escape, false));
            var second := OverlayStep(first.state, KeyPressed(Escape, false));
            && !first.state.showSettings && first.state.window == o.window && first.resize == Some(ChatSize)
            && second.state.window == MainWindow.Hide(o.window) && second.resize == None
  {
  }

  /**
    The keydown handler is attached to the whole document, so Enter in a
    settings field submits whatever the hidden chat input holds.
   */
  lemma EnterInSettingsSubmitsChat(o: OverlayState)
    requires o.showSettings
    ensures OverlayStep(o, KeyPressed(Enter, false)).request == Chat.Submit(o.chat, o.store).request
    ensures OverlayStep(o, KeyPressed(Enter, false)).state.showSettings
  {
  }

  /** Ctrl+J writes the cleaned response, exactly as the copy button does. */
  lemma CopyShortcutMatchesButton(o: OverlayState, writeSucceeds: bool)
    requires o.chat.response != ""
    ensures var byKey := OverlayStep(o, KeyPressed(KeyEvent("j", false, true), writeSucceeds));
            byKey == OverlayStep(o, CopyClicked(writeSucceeds))
            && byKey.clipboard == Some(Copy.CleanForClipboard(o.chat.response))
  {
  }

  /**
    A model typed into the settings is the model of the next chat request:
    open the settings, edit the model, close them, press Enter.
   */
  lemma EditedModelReachesRequest(o: OverlayState, model: string)
    requires !o.showSettings && Chat.CanSubmit(o.chat)
    requires model != "" && ItemOr(o.store, ApiKeyItem, "") != ""
    ensures var shown := OverlayStep(o, SettingsButtonClicked).state;
            var edited := OverlayStep(shown, PanelEdited(Settings.ModelEdited(model))).state;
            var closed := OverlayStep(edited, SettingsCloseClicked).state;
            var sent := OverlayStep(closed, KeyPressed(Enter, false)).request;
            sent.Some? && sent.value.ChatCompletion? && sent.value.model == model
  {
    var shown := OverlayStep(o, SettingsButtonClicked).state;
    assert shown.chat == o.chat && shown.store == o.store && shown.showSettings;
    var edited := OverlayStep(shown, PanelEdited(Settings.ModelEdited(model))).state;
    assert edited.chat == o.chat && edited.store == SetItem(o.store, ModelItem, model);
    var closed := OverlayStep(edited, SettingsCloseClicked).state;
    assert closed.chat == o.chat && closed.store == edited.store && !closed.showSettings;
    EnterSendsStoredModel(closed);
  }

  /**
    Selecting Gemini in the settings changes the stored model, but the chat
    still sends an OpenAI request, now naming the Gemini model.
   */
  lemma GeminiSelectionStillUsesOpenAI(o: OverlayState)
    requires o.showSettings && Chat.CanSubmit(o.chat)
    requires ItemOr(o.store, ApiKeyItem, "") != ""
    ensures var edited := OverlayStep(o, PanelEdited(Settings.ProviderSelected("gemini"))).state;
            var sent := OverlayStep(edited, KeyPressed(Enter, false)).request;
            sent.Some? && sent.value.ChatCompletion? && sent.value.model == "gemini-2.5-flash"
            && sent.value.apiKey == o.store[ApiKeyItem]
  {
    var step := Settings.PanelStep(o.panel, o.store, Settings.ProviderSelected("gemini"));
    Settings.ProviderSelectionKeepsKey(o.panel, o.store, "gemini");
    var edited := OverlayStep(o, PanelEdited(Settings.ProviderSelected("gemini"))).state;
    assert edited == o.(panel := step.panel, store := step.store);
    EnterSendsStoredModel(edited);
  }

  /** Enter with a submittable input, a stored key and a stored model sends an OpenAI request for that model. */
  lemma EnterSendsStoredModel(o: OverlayState)
    requires Chat.CanSubmit(o.chat)
    requires ItemOr(o.store, ApiKeyItem, "") != ""
    requires ModelItem in o.store && o.store[ModelItem] != ""
    ensures var sent := OverlayStep(o, KeyPressed(Enter, false)).request;
            && sent.Some? && sent.value.ChatCompletion?
            && sent.value.model == o.store[ModelItem] && sent.value.apiKey == o.store[ApiKeyItem]
  {
    assert KeyActionFor(Enter, o.showSettings) == SubmitChat;
    var sub := Chat.Submit(o.chat, o.store);
    assert OverlayStep(o, KeyPressed(Enter, false)).request == sub.request;
  }

  /**
    Opening the settings makes Overlay's own effect request 600×950 once, and
    the main process places that size centred in a rectangle of the work
    area's size anchored at the screen origin.
   */
  lemma SettingsWindowIsCentred(o: OverlayState, screenWidth: int, screenHeight: int)
    requires !o.showSettings && o.window.windowExists
    ensures var shown := OverlayStep(o, SettingsButtonClicked);
            && shown.resize == Some(SettingsSize)
            && OverlayStep(shown.state, SettingsButtonClicked).resize == None
            && MainWindow.Resize(o.window, screenWidth, screenHeight, 600, 950)
               == Some(MainWindow.Bounds((screenWidth - 599) / 2, (screenHeight - 949) / 2, 600, 950))
  {
  }
}

=== FILE: settings.dfy ===
/**
  The settings panel, src/renderer/components/SettingsPanel.jsx: the values it
  shows, how it loads them from `localStorage`, and how every edit is written
  back at once. The panel keeps its own copy of each value; the store is what a
  later load, and the chat hook, will see.
 */
module Settings {
  import opened Js
  import opened Storage

  const DefaultOllamaUrl := "http://localhost:11434"
  const DefaultProvider := "openai"
  const DefaultModel := "gpt-4.1-mini"

  /** The panel's default system prompt: four rules (the chat hook's fallback has three). */
  const DefaultSystemPrompt :=
    "You are a helpful AI assistant. Follow "
    + "these rules in every response:\n\n1. **Be "
    + "concise.** Provide the shortest answer "
    + "that fully addresses the user's question\U{2014}no "
    + "background, no extra commentary.\n\n2. "
    + "**Code-only responses.** If the user "
    + "asks for code or a shell command, reply "
    + "with *only* the code in a properly fenced "
    + "code block. Do not include any explanation, "
    + "commentary, or surrounding text.\n\n3. "
    + "**No unsolicited information.** Unless "
    + "the user explicitly asks for examples, "
    + "alternatives, or details, do not add "
    + "any additional information.\n\n4. **Clarify "
    + "when needed.** If the user's request "
    + "is ambiguous or missing critical details, "
    + "ask a brief clarifying question\U{2014}but "
    + "still keep it as short as possible."

  /** The values of the provider drop-down. */
  const Providers := ["openai", "gemini", "ollama"]

  /** The model suggestions offered for a provider; an unknown provider has none. */
  function SuggestedModels(provider: string): (r: seq<string>)
    ensures r != [] <==> provider in Providers
    ensures forall i :: 0 <= i < |r| ==> r[i] != ""
  {
    if provider == "openai" then ["gpt-4.1", "gpt-4.1-mini", "gpt-4o", "gpt-4o-mini"]
    else if provider == "gemini" then ["gemini-2.5-flash", "gemini-2.5-flash-lite-preview-06-17", "gemini-2.5-pro"]
    else if provider == "ollama" then ["qwen3"]
    else []
  }

  /** The model selected when the provider changes: one of its suggestions, or the OpenAI default for an unknown provider. */
  function DefaultModelFor(provider: string): (r: string)
    ensures r != ""
    ensures provider in Providers ==> r in SuggestedModels(provider)
    ensures provider !in Providers ==> r == DefaultModel
    ensures provider == "openai" ==> r == DefaultModel
  {
    if provider == "openai" then "gpt-4.1-mini"
    else if provider == "gemini" then "gemini-2.5-flash"
    else if provider == "ollama" then "qwen3"
    else "gpt-4.1-mini"
  }

  /** What the panel shows. */
  datatype PanelState = PanelState(
    openaiApiKey: string,
    geminiApiKey: string,
    ollamaUrl: string,
    model: string,
    systemPrompt: string,
    clearOnReload: bool,
    apiProvider: string)

  /** The panel's values before its first load completes. */
  const InitialPanel := PanelState("", "", DefaultOllamaUrl, DefaultModel, "", true, DefaultProvider)

  /** Clear-on-reload is on unless the stored value is exactly the string "false". */
  predicate ClearOnReloadSetting(store: Store)
    ensures ClearOnReloadSetting(store) <==> !(ClearOnReloadItem in store && store[ClearOnReloadItem] == "false")
  {
    GetItem(store, ClearOnReloadItem) != Some("false")
  }

  /** JavaScript's `Boolean.prototype.toString`. */
  function BoolToString(b: bool): (r: string)
    ensures r == "true" <==> b
    ensures r == "false" <==> !b
  {
    if b then "true" else "false"
  }

  /** Writing a boolean and reading it back as the clear-on-reload setting gives the boolean. */
  lemma ClearOnReloadRoundTrip(store: Store, b: bool)
    ensures ClearOnReloadSetting(SetItem(store, ClearOnReloadItem, BoolToString(b))) == b
  {
  }

  /**
    `loadSettings`: every stored value, with a default for each missing or
    empty one (empty keys stay empty).
   */
  function Load(store: Store): (p: PanelState)
    ensures p.openaiApiKey == ItemOr(store, ApiKeyItem, "")
    ensures p.geminiApiKey == ItemOr(store, GeminiKeyItem, "")
    ensures p.ollamaUrl != "" && p.model != "" && p.systemPrompt != "" && p.apiProvider != ""
    ensures p.ollamaUrl == ItemOr(store, OllamaUrlItem, DefaultOllamaUrl)
    ensures p.model == ItemOr(store, ModelItem, DefaultModel)
    ensures p.systemPrompt == ItemOr(store, SystemPromptItem, DefaultSystemPrompt)
    ensures p.apiProvider == ItemOr(store, ProviderItem, DefaultProvider)
    ensures p.clearOnReload == ClearOnReloadSetting(store)
  {
    PanelState(
      ItemOr(store, ApiKeyItem, ""),
      ItemOr(store, GeminiKeyItem, ""),
      ItemOr(store, OllamaUrlItem, DefaultOllamaUrl),
      ItemOr(store, ModelItem, DefaultModel),
      ItemOr(store, SystemPromptItem, DefaultSystemPrompt),
      ClearOnReloadSetting(store),
      ItemOr(store, ProviderItem, DefaultProvider))
  }

  /** The edits the panel handles; each is written to the store immediately. */
  datatype Edit =
    | OpenAIKeyEdited(key: string)
    | GeminiKeyEdited(key: string)
    | OllamaUrlEdited(url: string)
    | ProviderSelected(provider: string)
    | ModelEdited(model: string)            // typed or picked in the model combobox
    | ClearOnReloadToggled(checked: bool)
    | SystemPromptEdited(prompt: string)
    | DefaultPromptRestored

  /** The store keys an edit writes. */
  function WrittenKeys(e: Edit): set<string> {
    match e
    case OpenAIKeyEdited(_) => {ApiKeyItem}
    case GeminiKeyEdited(_) => {GeminiKeyItem}
    case OllamaUrlEdited(_) => {OllamaUrlItem}
    case ProviderSelected(_) => {ProviderItem, ModelItem}
    case ModelEdited(_) => {ModelItem}
    case ClearOnReloadToggled(_) => {ClearOnReloadItem}
    case SystemPromptEdited(_) => {SystemPromptItem}
    case DefaultPromptRestored => {SystemPromptItem}
  }

  datatype PanelOutcome = PanelOutcome(panel: PanelState, store: Store)

  /**
    One edit: the panel shows the new value and the store receives it.
    Choosing a provider also switches the model to that provider's default,
    in the panel and in the store. No other key is written.
   */
  function PanelStep(p: PanelState, store: Store, e: Edit): (r: PanelOutcome)
    ensures e.OpenAIKeyEdited? ==>
      r.panel == p.(openaiApiKey := e.key) && r.store == store[ApiKeyItem := e.key]
    ensures e.GeminiKeyEdited? ==>
      r.panel == p.(geminiApiKey := e.key) && r.store == store[GeminiKeyItem := e.key]
    ensures e.OllamaUrlEdited? ==>
      r.panel == p.(ollamaUrl := e.url) && r.store == store[OllamaUrlItem := e.url]
    ensures e.ProviderSelected? ==>
      && r.panel == p.(apiProvider := e.provider, model := DefaultModelFor(e.provider))
      && r.store == store[ProviderItem := e.provider][ModelItem := DefaultModelFor(e.provider)]
    ensures e.ModelEdited? ==> r.panel == p.(model := e.model) && r.store == store[ModelItem := e.model]
    ensures e.ClearOnReloadToggled? ==>
      r.panel == p.(clearOnReload := e.checked) && r.store == store[ClearOnReloadItem := BoolToString(e.checked)]
    ensures e.SystemPromptEdited? ==>
      r.panel == p.(systemPrompt := e.prompt) && r.store == store[SystemPromptItem := e.prompt]
    ensures e.DefaultPromptRestored? ==>
      r.panel == p.(systemPrompt := DefaultSystemPrompt) && r.store == store[SystemPromptItem := DefaultSystemPrompt]
  {
    match e
    case OpenAIKeyEdited(key) => PanelOutcome(p.(openaiApiKey := key), SetItem(store, ApiKeyItem, key))
    case GeminiKeyEdited(key) => PanelOutcome(p.(geminiApiKey := key), SetItem(store, GeminiKeyItem, key))
    case OllamaUrlEdited(url) => PanelOutcome(p.(ollamaUrl := url), SetItem(store, OllamaUrlItem, url))
    case ProviderSelected(provider) =>
      var model := DefaultModelFor(provider);
      PanelOutcome(p.(apiProvider := provider, model := model),
                   SetItem(SetItem(store, ProviderItem, provider), ModelItem, model))
    case ModelEdited(model) => PanelOutcome(p.(model := model), SetItem(store, ModelItem, model))
    case ClearOnReloadToggled(checked) =>
      PanelOutcome(p.(clearOnReload := checked), SetItem(store, ClearOnReloadItem, BoolToString(checked)))
    case SystemPromptEdited(prompt) =>
      PanelOutcome(p.(systemPrompt := prompt), SetItem(store, SystemPromptItem, prompt))
    case DefaultPromptRestored =>
      PanelOutcome(p.(systemPrompt := DefaultSystemPrompt), SetItem(store, SystemPromptItem, DefaultSystemPrompt))
  }

  /** An edit writes every key it owns and changes no other key. */
  lemma EditWritesOnlyItsKeys(p: PanelState, store: Store, e: Edit)
    ensures var r := PanelStep(p, store, e).store;
            && AgreeExcept(store, r, WrittenKeys(e))
            && forall k :: k in WrittenKeys(e) ==> k in r
  {
  }

  /** Applies edits in order. */
  function PanelRun(p: PanelState, store: Store, edits: seq<Edit>): PanelOutcome
    decreases |edits|
  {
    if edits == [] then PanelOutcome(p, store)
    else
      var first := PanelStep(p, store, edits[0]);
      PanelRun(first.panel, first.store, edits[1..])
  }

  /** What a reload would show for the panel's values: an emptied field comes back as its default. */
  function Reloaded(p: PanelState): (r: PanelState)
    ensures r.openaiApiKey == p.openaiApiKey && r.geminiApiKey == p.geminiApiKey
    ensures r.clearOnReload == p.clearOnReload
    ensures p.model != "" ==> r.model == p.model
    ensures p.model == "" ==> r.model == DefaultModel
  {
    PanelState(
      p.openaiApiKey,
      p.geminiApiKey,
      OrElse(Some(p.ollamaUrl), DefaultOllamaUrl),
      OrElse(Some(p.model), DefaultModel),
      OrElse(Some(p.systemPrompt), DefaultSystemPrompt),
      p.clearOnReload,
      OrElse(Some(p.apiProvider), DefaultProvider))
  }

  /** The panel agrees with the store: reloading would show what the panel shows, up to emptied fields. */
  predicate Synced(p: PanelState, store: Store) {
    Load(store) == Reloaded(p)
  }

  /** Right after loading, the panel is in sync with the store. */
  lemma LoadIsSynced(store: Store)
    ensures Synced(Load(store), store)
  {
  }

  /** Every edit keeps the panel in sync with the store. */
  lemma StepKeepsSynced(p: PanelState, store: Store, e: Edit)
    requires Synced(p, store)
    ensures Synced(PanelStep(p, store, e).panel, PanelStep(p, store, e).store)
  {
    if e.OpenAIKeyEdited? || e.GeminiKeyEdited? || e.OllamaUrlEdited? || e.ModelEdited? {
      FieldEditKeepsSynced(p, store, e);
    } else {
      ChoiceEditKeepsSynced(p, store, e);
    }
  }

  /** Typing a key, a URL or a model keeps the panel in sync with the store. */
  lemma FieldEditKeepsSynced(p: PanelState, store: Store, e: Edit)
    requires Synced(p, store)
    requires e.OpenAIKeyEdited? || e.GeminiKeyEdited? || e.OllamaUrlEdited? || e.ModelEdited?
    ensures Synced(PanelStep(p, store, e).panel, PanelStep(p, store, e).store)
  {
    match e
    case OpenAIKeyEdited(key) => LoadAfterKeyWrite(p, store, key);
    case GeminiKeyEdited(key) => LoadAfterGeminiKeyWrite(p, store, key);
    case OllamaUrlEdited(url) => LoadAfterUrlWrite(p, store, url);
    case ModelEdited(model) => LoadAfterModelWrite(p, store, model);
  }

  /** Choosing a provider, toggling clear-on-reload and editing or restoring the prompt keep the panel in sync. */
  lemma ChoiceEditKeepsSynced(p: PanelState, store: Store, e: Edit)
    requires Synced(p, store)
    requires e.ProviderSelected? || e.ClearOnReloadToggled? || e.SystemPromptEdited? || e.DefaultPromptRestored?
    ensures Synced(PanelStep(p, store, e).panel, PanelStep(p, store, e).store)
  {
    match e
    case ProviderSelected(provider) => LoadAfterProviderSelected(p, store, provider);
    case ClearOnReloadToggled(checked) => LoadAfterClearOnReloadWrite(p, store, checked);
    case SystemPromptEdited(prompt) => LoadAfterPromptWrite(p, store, prompt);
    case DefaultPromptRestored => LoadAfterPromptWrite(p, store, DefaultSystemPrompt);
  }

  /** The seven settings keys are distinct strings. */
  lemma KeysDistinct()
    ensures ApiKeyItem != GeminiKeyItem && ApiKeyItem != OllamaUrlItem && ApiKeyItem != ProviderItem && ApiKeyItem != ModelItem && ApiKeyItem != SystemPromptItem && ApiKeyItem != ClearOnReloadItem
    ensures GeminiKeyItem != OllamaUrlItem && GeminiKeyItem != ProviderItem && GeminiKeyItem != ModelItem && GeminiKeyItem != SystemPromptItem && GeminiKeyItem != ClearOnReloadItem
    ensures OllamaUrlItem != ProviderItem && OllamaUrlItem != ModelItem && OllamaUrlItem != SystemPromptItem && OllamaUrlItem != ClearOnReloadItem
    ensures ProviderItem != ModelItem && ProviderItem != SystemPromptItem && ProviderItem != ClearOnReloadItem
    ensures ModelItem != SystemPromptItem && ModelItem != ClearOnReloadItem
    ensures SystemPromptItem != ClearOnReloadItem
  {
  }

  /** Writing one key leaves what every other key reads as it was. */
  lemma WriteKeepsOtherItems(store: Store, key: string, value: string)
    ensures GetItem(store[key := value], key) == Some(value)
    ensures forall k :: k != key ==> GetItem(store[key := value], k) == GetItem(store, k)
  {
  }

  /** A load after the OpenAI key is written shows that key and nothing else changes, so an edit of the key keeps the panel in sync. */
  lemma LoadAfterKeyWrite(p: PanelState, store: Store, value: string)
    ensures Load(store[ApiKeyItem := value]) == Load(store).(openaiApiKey := value)
    ensures Synced(p, store) ==> Synced(p.(openaiApiKey := value), store[ApiKeyItem := value])
  {
    KeysDistinct();
    WriteKeepsOtherItems(store, ApiKeyItem, value);
  }

  /** A load after the Gemini key is written shows that key and nothing else changes, so an edit of the key keeps the panel in sync. */
  lemma LoadAfterGeminiKeyWrite(p: PanelState, store: Store, value: string)
    ensures Load(store[GeminiKeyItem := value]) == Load(store).(geminiApiKey := value)
    ensures Synced(p, store) ==> Synced(p.(geminiApiKey := value), store[GeminiKeyItem := value])
  {
    KeysDistinct();
    WriteKeepsOtherItems(store, GeminiKeyItem, value);
  }

  /** A load after the Ollama URL is written shows it, or the default URL when it is empty. */
  lemma LoadAfterUrlWrite(p: PanelState, store: Store, value: string)
    ensures Load(store[OllamaUrlItem := value]) == Load(store).(ollamaUrl := OrElse(Some(value), DefaultOllamaUrl))
    ensures Synced(p, store) ==> Synced(p.(ollamaUrl := value), store[OllamaUrlItem := value])
  {
    KeysDistinct();
    WriteKeepsOtherItems(store, OllamaUrlItem, value);
  }

  /** A load after the model is written shows it, or the default model when it is empty. */
  lemma LoadAfterModelWrite(p: PanelState, store: Store, value: string)
    ensures Load(store[ModelItem := value]) == Load(store).(model := OrElse(Some(value), DefaultModel))
    ensures Synced(p, store) ==> Synced(p.(model := value), store[ModelItem := value])
  {
    KeysDistinct();
    WriteKeepsOtherItems(store, ModelItem, value);
  }

  /** A load after the system prompt is written shows it, or the default prompt when it is empty. */
  lemma LoadAfterPromptWrite(p: PanelState, store: Store, value: string)
    ensures Load(store[SystemPromptItem := value]) == Load(store).(systemPrompt := OrElse(Some(value), DefaultSystemPrompt))
    ensures Synced(p, store) ==> Synced(p.(systemPrompt := value), store[SystemPromptItem := value])
  {
    KeysDistinct();
    WriteKeepsOtherItems(store, SystemPromptItem, value);
  }

  /** A load after the provider is written shows it, or the default provider when it is empty. */
  lemma LoadAfterProviderWrite(p: PanelState, store: Store, value: string)
    ensures Load(store[ProviderItem := value]) == Load(store).(apiProvider := OrElse(Some(value), DefaultProvider))
    ensures Synced(p, store) ==> Synced(p.(apiProvider := value), store[ProviderItem := value])
  {
    KeysDistinct();
    WriteKeepsOtherItems(store, ProviderItem, value);
  }

  /** A load after the clear-on-reload checkbox is saved shows the checkbox as it was set. */
  lemma LoadAfterClearOnReloadWrite(p: PanelState, store: Store, checked: bool)
    ensures Load(store[ClearOnReloadItem := BoolToString(checked)]) == Load(store).(clearOnReload := checked)
    ensures Synced(p, store) ==> Synced(p.(clearOnReload := checked), store[ClearOnReloadItem := BoolToString(checked)])
  {
    KeysDistinct();
    WriteKeepsOtherItems(store, ClearOnReloadItem, BoolToString(checked));
  }

  /** What a load shows after a provider is chosen: that provider and its default model. */
  lemma LoadAfterProviderSelected(p: PanelState, store: Store, provider: string)
    ensures var model := DefaultModelFor(provider);
            Load(store[ProviderItem := provider][ModelItem := model])
            == Load(store).(apiProvider := OrElse(Some(provider), DefaultProvider), model := model)
    ensures var model := DefaultModelFor(provider);
            Synced(p, store) ==>
            Synced(p.(apiProvider := provider, model := model), store[ProviderItem := provider][ModelItem := model])
  {
    var model := DefaultModelFor(provider);
    LoadAfterProviderWrite(p, store, provider);
    LoadAfterModelWrite(p.(apiProvider := provider), store[ProviderItem := provider], model);
  }

  /** Any sequence of edits keeps the panel in sync with the store. */
  lemma {:induction false} RunKeepsSynced(p: PanelState, store: Store, edits: seq<Edit>)
    requires Synced(p, store)
    ensures Synced(PanelRun(p, store, edits).panel, PanelRun(p, store, edits).store)
    decreases |edits|
  {
    if edits != [] {
      var first := PanelStep(p, store, edits[0]);
      StepKeepsSynced(p, store, edits[0]);
      RunKeepsSynced(first.panel, first.store, edits[1..]);
    }
  }

  /** A model typed into the panel is what the next load shows; an emptied one loads as the default. */
  lemma SavedModelLoads(p: PanelState, store: Store, model: string)
    ensures Load(PanelStep(p, store, ModelEdited(model)).store).model == OrElse(Some(model), DefaultModel)
  {
  }

  /**
    Changing the provider replaces whatever model was chosen by the new
    provider's default, which is one of its suggestions.
   */
  lemma ProviderChangeResetsModel(p: PanelState, store: Store, provider: string)
    requires provider in Providers
    ensures var r := PanelStep(p, store, ProviderSelected(provider));
            r.panel.model in SuggestedModels(provider) && Load(r.store).model == r.panel.model
            && Load(r.store).apiProvider == provider
  {
  }

  /** Choosing a provider stores its default model and leaves the OpenAI key as it was. */
  lemma ProviderSelectionKeepsKey(p: PanelState, store: Store, provider: string)
    ensures var r := PanelStep(p, store, ProviderSelected(provider)).store;
            && ModelItem in r && r[ModelItem] == DefaultModelFor(provider)
            && (provider == "gemini" ==> r[ModelItem] == "gemini-2.5-flash")
            && ItemOr(r, ApiKeyItem, "") == ItemOr(store, ApiKeyItem, "")
            && (ApiKeyItem in store ==> ApiKeyItem in r && r[ApiKeyItem] == store[ApiKeyItem])
  {
    assert ApiKeyItem !in WrittenKeys(ProviderSelected(provider));
  }

  /** Restoring the default prompt after any edit of it leaves the panel and the next load on the default. */
  lemma RestoreAfterEdit(p: PanelState, store: Store, prompt: string)
    ensures var r := PanelRun(p, store, [SystemPromptEdited(prompt), DefaultPromptRestored]);
            r.panel.systemPrompt == DefaultSystemPrompt && Load(r.store).systemPrompt == DefaultSystemPrompt
  {
    var edited := PanelStep(p, store, SystemPromptEdited(prompt));
    var restored := PanelStep(edited.panel, edited.store, DefaultPromptRestored);
    assert PanelRun(edited.panel, edited.store, [DefaultPromptRestored]) == PanelRun(restored.panel, restored.store, []);
  }

  /** Loading an empty store shows the defaults, which differ from the panel's state before loading only in the prompt. */
  lemma LoadEmptyStore()
    ensures Load(map[]) == InitialPanel.(systemPrompt := DefaultSystemPrompt)
  {
  }

  /** The provider's own field of the panel. */
  datatype ProviderField = OpenAIKeyField | GeminiKeyField | OllamaUrlField | NoProviderField

  /** Which provider-specific input the panel shows: none for a provider it does not know. */
  function ProviderFieldFor(provider: string): (f: ProviderField)
    ensures f == NoProviderField <==> provider !in Providers
    ensures f == OpenAIKeyField <==> provider == "openai"
    ensures f == GeminiKeyField <==> provider == "gemini"
    ensures f == OllamaUrlField <==> provider == "ollama"
  {
    if provider == "openai" then OpenAIKeyField
    else if provider == "gemini" then GeminiKeyField
    else if provider == "ollama" then OllamaUrlField
    else NoProviderField
  }
}

=== FILE: storage.dfy ===
/**
  The browser's `localStorage` as an immutable map from keys to stored strings.
 */
module Storage {
  import opened Js

  type Store = map<string, string>

  /** The keys the application stores its settings under. */
  const ApiKeyItem := "openaiApiKey"
  const GeminiKeyItem := "geminiApiKey"
  const OllamaUrlItem := "ollamaUrl"
  const ProviderItem := "apiProvider"
  const ModelItem := "model"
  const SystemPromptItem := "systemPrompt"
  const ClearOnReloadItem := "clearOnReload"

  /** `localStorage.getItem(key)`: the stored string, or `null` when the key was never written. */
  function GetItem(store: Store, key: string): (r: Option<string>)
    ensures r.Some? <==> key in store
    ensures r.Some? ==> r.value == store[key]
  {
    if key in store then Some(store[key]) else None
  }

  /** `localStorage.getItem(key) || fallback`. */
  function ItemOr(store: Store, key: string, fallback: string): (r: string)
    ensures r == if key in store && store[key] != "" then store[key] else fallback
  {
    OrElse(GetItem(store, key), fallback)
  }

  /** `localStorage.setItem(key, value)`: writes one key and leaves every other key as it was. */
  function SetItem(store: Store, key: string, value: string): (r: Store)
    ensures r.Keys == store.Keys + {key}
    ensures r[key] == value
    ensures forall k :: k in store && k != key ==> r[k] == store[k]
  {
    store[key := value]
  }

  /** Two stores agree on every key except possibly the given ones. */
  ghost predicate AgreeExcept(a: Store, b: Store, keys: set<string>) {
    forall k :: k !in keys ==> (k in a <==> k in b) && (k in a ==> a[k] == b[k])
  }
}
